=== FILE: README.md ===
# Golden models of the 10G low-latency Ethernet testbench

This project models the reference ("golden") behaviour that the cocotb
testbenches of the 10G low-latency Ethernet MAC/PCS use to judge the
hardware. It also proves what that behaviour guarantees.

- `RxGearbox` (gearbox.dfy) is the 66-to-64 bit receive gearbox model: a
  67-bit buffer, a 33-cycle phase counter and a half-slip parity. It is a
  class whose `Next` updates the buffer in place. It is proved to hand over
  every 66-bit block unchanged across a period of 33 words.
- `AxiStream` (axis.dfy) is the bus functional model's `compact_axis_no_tuser`.
  It removes the bytes whose `tkeep` is zero, in place and in the
  source's order of deletions, and then collapses the sideband lists.
- `LanePacking` (lanes.dfy) covers how the CRC and MAC tests cut a byte
  vector into bus-wide chunks and pack each chunk into a little-endian data
  word with a contiguous valid mask. It also covers the MAC test's drive
  loop with its ready-stall timeout.
- `Crc32` (crc.dfy) is the reflected CRC-32 of IEEE 802.3 clause 3.2.9.
  It proves the golden value of the CRC test and the check-sequence
  property of a frame that carries its own FCS.
- `GoldenVectors` (vectors.dfy) holds the XGMII and 64b/66b tables of the
  MAC and PCS tests. It proves that the 64-bit table carries exactly
  idle, start, the 60-byte test frame, its FCS, terminate and idle. It
  proves that the 32-bit table is the 64-bit table split word by word,
  and that the scrambled table's sync headers follow the control mask.
- `PcsBench` (pcs_bench.dfy) covers the PCS testbench:
  - the gearbox pause value;
  - parsing of the idle word;
  - the loopback capture queue;
  - the frame monitors of the TX and RX checks, as a cycle-by-cycle
    matcher with a 10-clock timeout.
- `Scoreboard` (scoreboard.dfy) is the MAC/PCS scoreboard: `data_eq` with
  Python slicing, `rx_crc_valid` and the FIFO pairing of `check_phase`. It
  also states the ranges of the random packet generator.
- `Common` (common.dfy) holds shared definitions: option, byte, powers of
  two and flattening.

The original code works on Python integers and lists. Here, words are
`bv8`/`bv64`/`nat` values and lists are sequences. Simulator I/O becomes
parameters: a sampled trace, a ready signal as a function of the clock,
and random draws.

## Model

| member | source | states |
|---|---|---|
| RxGearbox.Count | src/tb/gearbox/gearbox_model.py:16-19 | the phase counter is the cycle count modulo 33 and stays below the period |
| RxGearbox.CountSuccessor | src/tb/gearbox/gearbox_model.py:65-69 | from an odd phase, one more cycle advances the phase by one, and two more cycles advance it by two or wrap 31 to 0 |
| RxGearbox.DataIdxsClosedForm | src/tb/gearbox/gearbox_model.py:21 | the insert-offset table has 33 entries; entry `count` is 0 for count 0, 33 - count for odd counts and 66 - count for even ones |
| RxGearbox.SplicedBitSource | src/tb/gearbox/gearbox_model.py:38-45 | each pass of the bit-select loop either keeps the buffer bit or copies one of the first 32 input bits; the mirror bit 66 is always kept |
| RxGearbox.Splice | src/tb/gearbox/gearbox_model.py:34-45 | splicing keeps the buffer at 67 bits and never writes the mirror bit 66 |
| RxGearbox.SpliceWindows | src/tb/gearbox/gearbox_model.py:34-45 | the splice as slices: at phase 0 the word fills bits 0..31; at odd phases it fills `count-1..count+30`; at even phases it wraps around the 66-bit block |
| RxGearbox.WrittenPositions | src/tb/gearbox/gearbox_model.py:34-45 | the 32 buffer positions a call writes are strictly increasing and below 66 |
| RxGearbox.SpliceWritesRotatedWord | src/tb/gearbox/gearbox_model.py:34-45 | a call writes exactly those 32 positions, with the input word rotated to them, and leaves every other bit unchanged |
| RxGearbox.SpliceReadsFirstWord | src/tb/gearbox/gearbox_model.py:34-45 | the splice depends only on the first 32 input bits |
| RxGearbox.RxGearboxModel.SpliceInPlace | src/tb/gearbox/gearbox_model.py:36-45 | the bit-select loop leaves the buffer equal to `Splice` of its old contents, bit 66 included |
| RxGearbox.Step | src/tb/gearbox/gearbox_model.py:34-47 | after the splice bit 66 mirrors bit 0, and bits 0..65 are the spliced bits |
| RxGearbox.Emit | src/tb/gearbox/gearbox_model.py:49-63 | 32 data bits and 2 header bits; the header is read at the half-slip parity; data is invalid exactly at phase 0; a valid header implies valid data; the buffer snapshot and the cycle are returned |
| RxGearbox.EmitWindows | src/tb/gearbox/gearbox_model.py:49-63 | the header is valid exactly on odd phases; the data is bits 2..33 on odd phases and bits 34..65 on even ones, shifted up one bit at odd half-slip parity |
| RxGearbox.HalfSlipShiftsWindows | src/tb/gearbox/gearbox_model.py:49-54 | an odd half-slip reads the same data and header as an even one on the buffer shifted by one bit |
| RxGearbox.Run | src/tb/gearbox/gearbox_model.py:13-71 | feeding n words yields n outputs |
| RxGearbox.PhaseZeroLoadsWord | src/tb/gearbox/gearbox_model.py:38-42 | at phase 0 the input word lands in bits 0..31 |
| RxGearbox.OddCallLayout | src/tb/gearbox/gearbox_model.py:34-45 | an odd-phase call completes a 34-bit header-and-data prefix from the previous word's tail and the new word's head |
| RxGearbox.EvenCallLayout | src/tb/gearbox/gearbox_model.py:34-45 | the following even-phase call fills bits 34..65 and carries the new word's remainder to the front |
| RxGearbox.BlockRealignment | src/tb/gearbox/gearbox_model.py:49-63 | two consecutive valid calls emit header + data + data equal to the realigned bit stream |
| RxGearbox.DeliveredPair | src/tb/gearbox/gearbox_model.py:56-63 | a pair of outputs delivers header, first data and second data in that order |
| RxGearbox.PairsRealign | src/tb/gearbox/gearbox_model.py:13-71 | from an odd phase to the end of the period, the delivered bits are the carried-over tail followed by all remaining words; a run that stops earlier still holds back the tail of its last word |
| RxGearbox.PeriodDeliversBlocks | src/tb/gearbox/gearbox_model.py:13-71 | 33 words fed from phase 0 deliver exactly the 33 words' bits, which are 16 whole 66-bit blocks |
| RxGearbox.RxGearboxModel.constructor | src/tb/gearbox/gearbox_model.py:3-11 | a fresh 67-bit buffer filled with the fill value, cycle 0, half-slip 0 |
| RxGearbox.RxGearboxModel.Next | src/tb/gearbox/gearbox_model.py:13-71 | the buffer becomes `Step` of the old buffer in place; the output is `Emit` of the new buffer at the old cycle and half-slip; a slip holds the cycle and bumps the half-slip, otherwise the cycle advances |
| RxGearbox.SlipTwice | src/tb/gearbox/gearbox_model.py:65-69 | two slipped calls leave the cycle unchanged and restore the half-slip parity |
| AxiStream.AxiStreamFrame.constructor | src/tb/mac_pcs/mac_pcs_bfm.py:182-184 | a frame with per-byte sideband lists as given |
| AxiStream.DropMask | src/tb/mac_pcs/mac_pcs_bfm.py:185-196 | byte i is dropped exactly when `tkeep[i]` is 0; an empty `tkeep` drops nothing |
| AxiStream.KeptFrom | src/tb/mac_pcs/mac_pcs_bfm.py:185-196 | the kept positions are increasing and are exactly the positions not dropped |
| AxiStream.SurvivorsAreKept | src/tb/mac_pcs/mac_pcs_bfm.py:185-196 | the survivors are the entries at the kept positions, in order |
| AxiStream.SurvivorsBeyondMask | src/tb/mac_pcs/mac_pcs_bfm.py:189-196 | entries beyond the end of the mask all survive |
| AxiStream.DeleteAt | src/tb/mac_pcs/mac_pcs_bfm.py:189-196 | `del` removes exactly one entry when the index exists and nothing otherwise |
| AxiStream.PartlyCompacted | src/tb/mac_pcs/mac_pcs_bfm.py:185-196 | deletions at indices k and above leave the first k entries alone |
| AxiStream.CompactStep | src/tb/mac_pcs/mac_pcs_bfm.py:185-196 | one step of the backwards deletion loop deletes at k exactly when byte k is dropped |
| AxiStream.CompactEnds | src/tb/mac_pcs/mac_pcs_bfm.py:185-196 | before the loop nothing is deleted; after it the list holds exactly the survivors |
| AxiStream.Collapse | src/tb/mac_pcs/mac_pcs_bfm.py:203-216 | an empty list becomes absent, an all-equal list a scalar, anything else stays a list; expanding the result gives back the list |
| AxiStream.CompactAxisNoTuser | src/tb/mac_pcs/mac_pcs_bfm.py:182-218 | the same frame is returned; `tdata`, `tid` and `tdest` keep exactly the bytes whose `tkeep` is set; `tkeep` becomes absent; `tid` and `tdest` are then collapsed, and `tuser` is collapsed with no byte removed |
| LanePacking.BytesPerWord | src/tb/crc/test_crc.py:54-55 | a bus width has a byte count exactly when it is a multiple of 8, and 8 times the count is the width |
| LanePacking.Chunks | src/tb/crc/test_crc.py:59-60 | every chunk is non-empty and at most `size` long; all but the last are exactly `size` long |
| LanePacking.ChunksCount | src/tb/crc/test_crc.py:59-60 | the number of chunks is the length divided by the size, rounded up |
| LanePacking.ChunksFlatten | src/tb/mac/test_mac.py:104-105 | concatenating the chunks gives back the vector |
| LanePacking.ChunkAt | src/tb/crc/test_crc.py:59-60 | chunk j is the slice starting at j*size, cut at the vector's end |
| LanePacking.PackStep | src/tb/crc/test_crc.py:70-72 | one loop step ORs the next byte into the little-endian value and the next bit into the mask |
| LanePacking.PackLanes | src/tb/crc/test_crc.py:66-72 | the packed value is the chunk read little-endian and the valid mask is 2^len - 1 |
| LanePacking.LaneOfLittleEndian | src/tb/mac/test_mac.py:133-137 | byte lane k of the packed word is byte k of the chunk, and 0 past its end |
| LanePacking.MaskBits | src/tb/crc/test_crc.py:72 | bit k of the mask 2^n - 1 is set exactly for k < n |
| LanePacking.PackUnpack | src/tb/crc/test_crc.py:66-72 | reading the packed word back through its mask gives exactly the chunk |
| LanePacking.Beats | src/tb/mac/test_mac.py:133-142 | one beat per chunk, and only the last beat has `tlast` |
| LanePacking.BeatsCarryVector | src/tb/mac/test_mac.py:123-142 | reading every beat back through its `tkeep` mask and concatenating gives exactly the vector; only the last beat has `tlast` |
| LanePacking.StallClocks | src/tb/mac/test_mac.py:127-131 | the stall count never exceeds the elapsed clocks |
| LanePacking.DriveVector | src/tb/mac/test_mac.py:119-144 | either all beats are driven, or the drive times out after 40 stalled clocks having driven a prefix of them; clocks are beats plus stalls |
| Crc32.FcsOctets | src/tb/pcs/pcs_test_vector.py:16 | the check sequence is four octets |
| Crc32.RegisterAppend | src/tb/crc/test_crc.py:66-79 | feeding a message in pieces gives the same register as feeding it whole |
| Crc32.FcsLeavesResidue | src/tb/pcs/pcs_test_vector.py:16 | appending the complemented register leaves the fixed residue |
| Crc32.Crc | src/tb/pcs/pcs_test_vector.py:8-16 | any message followed by its own CRC-32 as FCS leaves the receiver's register at the CRC-32 residue |
| Crc32.ComplementClears | src/tb/pcs/pcs_test_vector.py:16 | four octet updates with the complemented register, low octet first, bring any register to the residue |
| Crc32.RegisterFour | src/tb/crc/test_crc.py:66-79 | feeding a four-octet bus word is four octet updates in lane order |
| Crc32.ChainedRows | src/tb/crc/test_crc.py:66-79 | register states that chain row by row give the register over the whole vector |
| Crc32.CrcTestChain | src/tb/crc/test_crc.py:41-52 | the CRC test vector's rows chain through the listed register states |
| Crc32.CrcTestGolden | src/tb/crc/test_crc.py:81 | the CRC-32 of the 60-byte test vector is 0x1B8831B3 |
| GoldenVectors.LowHalfLanes | src/tb/mac/test_mac.py:174-199 | the low 32-bit half shows the same lanes as lanes 0..3 of the word |
| GoldenVectors.HighHalfLanes | src/tb/mac/test_mac.py:174-199 | the high 32-bit half shows the same lanes as lanes 4..7 of the word |
| GoldenVectors.SplitLanes | src/tb/mac/test_mac.py:174-199 | the lanes of the two halves, concatenated, are the lanes of the word |
| GoldenVectors.SplitKeepsStream | src/tb/mac/test_mac.py:174-199 | splitting every word keeps the lane stream |
| GoldenVectors.MacTestCrc | src/tb/mac/test_mac.py:83-90 | the MAC test frame is 60 bytes and its CRC-32 is 0x79F7EB93 |
| GoldenVectors.IdleRows | src/tb/pcs/pcs_test_vector.py:6-19 | rows 0 and 11 are all idle; row 10 is terminate then seven idles |
| GoldenVectors.StartRow | src/tb/pcs/pcs_test_vector.py:8 | row 1 is start, six preamble octets and the start-of-frame delimiter |
| GoldenVectors.PayloadRows | src/tb/mac/test_mac.py:160-173 | rows 2..8 carry the test frame's octets eight at a time |
| GoldenVectors.FcsRow | src/tb/pcs/pcs_test_vector.py:15-16 | row 9 carries the frame's last four octets and then its FCS |
| GoldenVectors.FrameStream64 | src/tb/mac/test_mac.py:160-173 | the 64-bit table's lane stream is idle, start, frame, FCS, terminate, idle |
| GoldenVectors.SplitTables | src/tb/mac/test_mac.py:160-199 | the 32-bit table is the 64-bit table split word by word |
| GoldenVectors.SplitAllOfRows | src/tb/mac/test_mac.py:174-199 | a table whose row pairs are the splits of another's rows is that table split |
| GoldenVectors.FrameStream32 | src/tb/mac/test_mac.py:174-199 | the 32-bit table carries the same lane stream |
| GoldenVectors.PcsTableIsMacTable | src/tb/pcs/pcs_test_vector.py:6-33 | the PCS XGMII table equals the MAC test's 64-bit table; the scrambled table has 11 blocks |
| GoldenVectors.SyncHeaders | src/tb/pcs/pcs_test_vector.py:21-33 | each scrambled block's sync header is 01 for control words and 10 for data words |
| GoldenVectors.SyncHeadersValid | src/tb/pcs/pcs_test_vector.py:21-33 | every sync header is one of the two valid values |
| GoldenVectors.ControlCharactersOnly | src/tb/mac/test_mac.py:160-199 | every control lane in both tables holds idle, start or terminate |
| GoldenVectors.PyIndex | src/tb/pcs/test_pcs.py:113 | Python indexing succeeds exactly for -len <= i < len |
| GoldenVectors.FlatTableByWidth | src/tb/pcs/test_pcs.py:113 | indexing the flat tables by 32 or 64 raises |
| GoldenVectors.XgmiiTable | src/tb/pcs/test_pcs.py:166 | a table exists exactly for widths 32 and 64, and is 768 bits long |
| GoldenVectors.ScrambledTable | src/tb/pcs/test_pcs.py:113 | a scrambled table exists only for width 64, and has 11 blocks |
| GoldenVectors.TableByWidthCarriesFrame | src/tb/pcs/test_pcs.py:191 | both tables by width carry the same lane stream |
| PcsBench.GearboxPauseValue | src/tb/pcs/test_pcs.py:24 | the pause phase is 31 at width 32 and 32 otherwise |
| PcsBench.PauseValuesAgree | src/tb/mac_pcs/mac_pcs_bfm.py:146 | the MAC/PCS bench's fixed pause 32 agrees with the PCS bench's pause at every width except 32 |
| PcsBench.ParseInt | src/tb/pcs/test_pcs.py:32-33 | `int(s, base)` succeeds exactly when the text after the prefix is non-empty and all digits of the base |
| PcsBench.IdleDataWord | src/tb/pcs/test_pcs.py:32 | the idle data text parses to a word whose first nbytes lanes are 0x07 |
| PcsBench.IdleCtlWord | src/tb/pcs/test_pcs.py:33 | the idle control text parses to 2^nbytes - 1, and fails to parse at 0 lanes |
| PcsBench.IdleCtlLanes | src/tb/pcs/test_pcs.py:33 | the parsed idle control word has exactly its first nbytes bits set |
| PcsBench.IdleDefaultIsFirstEntry | src/tb/pcs/test_pcs.py:32-33 | at 8 bytes the idle words are the table's first entry |
| PcsBench.TxStimulus | src/tb/pcs/test_pcs.py:132 | the stimulus is the table without its first entry |
| PcsBench.StimulusAfterIdle | src/tb/pcs/test_pcs.py:132 | the idle word followed by the stimulus is the whole table |
| PcsBench.CaptureOutputs | src/tb/pcs/test_pcs.py:52-65 | the queue holds the prefill zeros, then per sample the data, header, data-valid exactly when the sequence is not the pause, and header-valid on a sequence change; so every entry with a valid header has valid data, and a held sequence never flags a header |
| PcsBench.HeaderFlags | src/tb/pcs/test_pcs.py:60-62 | in any queue built by the capture rules, every entry with a valid header has valid data, and a sequence repeated from the previous clock never gives a valid header |
| PcsBench.ScheduleFacts | src/tb/pcs/test_pcs.py:103-127 | a successful schedule finds each entry in order, within the timeout, with no stray sample before it |
| PcsBench.StopClockIsFirst | src/tb/pcs/test_pcs.py:105-127 | a wrong-frame or timeout clock is the first failure: no valid sample between the last find and it, and no earlier sample equal to the first entry before the first find |
| PcsBench.StopOnStray | src/tb/pcs/test_pcs.py:109-116 | a valid sample that differs from the expected entry ends the check with a wrong frame at that clock |
| PcsBench.StopOnLast | src/tb/pcs/test_pcs.py:118-124 | finding the last entry ends the check with every entry found |
| PcsBench.StopOnTimeout | src/tb/pcs/test_pcs.py:105-127 | ten clocks without a match end the check with a timeout |
| PcsBench.MatchClock | src/tb/pcs/test_pcs.py:105-127 | one clock of the matcher either stops with a justified outcome or keeps the scan invariant and the timeout count |
| PcsBench.MonitorFrames | src/tb/pcs/test_pcs.py:103-127 | all entries are found exactly when the trace has the unique in-order schedule within the timeout; otherwise the reported clock is the first stray or the first timeout |
| PcsBench.MonitorTxScrambled | src/tb/pcs/test_pcs.py:103-127 | the TX check runs over the scrambled table from entry 0, and only at width 64 |
| PcsBench.RxStartIsFirstNonIdle | src/tb/pcs/test_pcs.py:156 | the RX start entry is the first that is not all idle, and begins with the start character, at both widths |
| PcsBench.RxStartFrame | src/tb/pcs/test_pcs.py:156 | at both bus widths the start entry skips exactly the 64 bits of the leading idle word |
| PcsBench.MonitorRxData | src/tb/pcs/test_pcs.py:155-180 | the RX check runs over the XGMII table by width from the start entry |
| Scoreboard.SliceBound | src/tb/mac_pcs/test_mac_pcs.py:145-149 | a slice bound is taken from the end when negative and clamped into the list |
| Scoreboard.DataEq | src/tb/mac_pcs/test_mac_pcs.py:145-149 | a passing comparison means the received data begins with the transmitted frame |
| Scoreboard.DataEqShort | src/tb/mac_pcs/test_mac_pcs.py:145-147 | a frame under 64 bytes matches exactly when it starts the received data and every byte after it, up to the last four, is zero |
| Scoreboard.DataEqLong | src/tb/mac_pcs/test_mac_pcs.py:148-149 | a longer frame matches exactly when the received data is the frame followed by four bytes |
| Scoreboard.RxCrcValid | src/tb/mac_pcs/test_mac_pcs.py:151-155 | the flag is set exactly when a non-empty per-byte list ends in 1; an empty list raises |
| Scoreboard.CrcValidAfterCollapse | src/tb/mac_pcs/mac_pcs_bfm.py:203-216 | on a collapsed list the check never raises, and passes exactly when the list ends in 1 and has two different values |
| Scoreboard.CheckPhase | src/tb/mac_pcs/test_mac_pcs.py:130-172 | passes exactly when some frames were received and each pairs up with its transmitted frame; otherwise it names the first failing pair, the first unpaired frame, or no frames |
| Scoreboard.Randint | src/tb/mac_pcs/test_mac_pcs.py:71 | a draw lands in the half-open range |
| Scoreboard.RandintCovers | src/tb/mac_pcs/test_mac_pcs.py:71 | every value of the range is reached by some draw |
| Scoreboard.PacketByte | src/tb/mac_pcs/test_mac_pcs.py:55 | a packet byte is never 255 |
| Scoreboard.GeneratePacket | src/tb/mac_pcs/test_mac_pcs.py:51-55 | a packet has 16..255 bytes, each at most 254 |
| Scoreboard.PacketBounds | src/tb/mac_pcs/test_mac_pcs.py:71 | exactly the sizes 16..255 occur, and no packet holds 255 |

## Left out

- The transmit gearbox model and the TX-to-RX gearbox round trip are not part of this model.
- The 64b/66b encoder and the scrambler are not modelled. The scrambled table is a constant.
- `get_state` of the gearbox model is debugging output and is not modelled.
- Clock edges, `await`, `cocotb.start_soon` and the queue timing of `apply_input` are simulator plumbing. Traces and ready signals are parameters instead.
- Clock periods as floating-point values are left out.
- The pyuvm environment, the configuration objects and the `cocotb_test` run scripts only wire the benches together, so they are left out.
- numpy's random generator is left out. Its draws are parameters, and `Randint` maps a draw into the range by remainder.
- `ParseInt` does not model signs, surrounding whitespace or `_` digit separators; the benches never produce them.
- Scoreboard.CheckPhase works on frames as values. Aliasing between the FIFOs' frame objects is not modelled.
- AxiStream.CompactAxisNoTuser takes only frames whose sidebands are per-byte lists and whose `tkeep` is empty or covers `tdata`, as the monitor supplies them. It does not model the `IndexError` of a shorter non-empty `tkeep` or the `TypeError` of an absent or scalar sideband.
- PcsBench.MonitorTxScrambled returns no result at width 32, because there is no 32-bit scrambled table.
- The pause phase differs between benches: the MAC/PCS bus functional model always uses 32, and the PCS bench uses 31 at width 32. PcsBench.CaptureOutputs takes the pause as a parameter, so it stands for both capture loops. PcsBench.PauseValuesAgree states where the two values differ.
- RxGearbox.RxGearboxModel.Next returns the buffer as a snapshot value. The Python list the original returns aliases the live buffer.
- LanePacking.DriveVector models `tvalid` and `tlast` through the beats it returns and not as signal writes.
- Crc32: the hardware CRC is not modelled. The golden values are proved of the bitwise reflected CRC-32 definition.

## Findings

| source | as written | input that shows it | evidently intended | confidence | as-written member | corrected member |
|---|---|---|---|---|---|---|
| src/tb/pcs/test_pcs.py:113 | `eg_scrambled_data[tb.data_width]` and `eg_xgmii_data[tb.data_width]` (also lines 132, 166 and 191) index a flat 11- or 12-entry list by the bus width | data width 32 or 64: the list index is out of range and raises `IndexError` | a table chosen by width, as in the MAC test's per-width tables: the 64-bit table at width 64 and its word-by-word split at width 32 | not executed | GoldenVectors.FlatTableByWidth | GoldenVectors.TableByWidthCarriesFrame |

=== FILE: axis.dfy ===
/** Received AXI-Stream frames as the MAC/PCS bus functional model compacts
  * them: byte lanes whose `tkeep` entry is zero are deleted from the data
  * and from `tid` and `tdest`, but deliberately not from `tuser`, which
  * carries the per-frame CRC status; then each sideband list is collapsed. */
module AxiStream {
  import opened Common

  /** A sideband field: absent (None), one value for the whole frame, or a
    * list with an entry per byte. */
  datatype Sideband = Absent | Single(value: int) | PerByte(values: seq<int>)

  class AxiStreamFrame {
    var tdata: seq<Byte>
    var tkeep: Sideband
    var tid: Sideband
    var tdest: Sideband
    var tuser: Sideband

    constructor (data: seq<Byte>, keep: seq<int>, id: seq<int>, dest: seq<int>, user: seq<int>)
      ensures tdata == data && tkeep == PerByte(keep) && tid == PerByte(id)
      ensures tdest == PerByte(dest) && tuser == PerByte(user)
    {
      tdata := data;
      tkeep := PerByte(keep);
      tid := PerByte(id);
      tdest := PerByte(dest);
      tuser := PerByte(user);
    }
  }

  /** Which of the first `n` byte positions are removed: those whose keep
    * entry is zero. An empty keep list removes nothing. */
  function DropMask(keep: seq<int>, n: nat): (drop: seq<bool>)
    requires |keep| == 0 || |keep| >= n
    ensures |drop| == 0 || |drop| == n
    ensures |drop| <= |keep|
    ensures forall i :: 0 <= i < |drop| ==> (drop[i] <==> keep[i] == 0)
  {
    if |keep| == 0 then [] else seq(n, i requires 0 <= i < n => keep[i] == 0)
  }

  predicate Dropped(drop: seq<bool>, i: nat)
  {
    i < |drop| && drop[i]
  }

  /** The entries of `xs` from position `i` on that are not dropped. */
  function SurvivorsFrom<T>(xs: seq<T>, drop: seq<bool>, i: nat): seq<T>
    requires i <= |xs|
    decreases |xs| - i
  {
    if i == |xs| then []
    else (if Dropped(drop, i) then [] else [xs[i]]) + SurvivorsFrom(xs, drop, i + 1)
  }

  function Survivors<T>(xs: seq<T>, drop: seq<bool>): seq<T>
  {
    SurvivorsFrom(xs, drop, 0)
  }

  /** Positions from `i` up to `n` that are not dropped, in increasing order. */
  function KeptFrom(n: nat, drop: seq<bool>, i: nat): (ks: seq<nat>)
    requires i <= n
    ensures forall j :: 0 <= j < |ks| ==> i <= ks[j] < n
    ensures forall j, l :: 0 <= j < l < |ks| ==> ks[j] < ks[l]
    ensures forall p :: i <= p < n ==> (p in ks <==> !Dropped(drop, p))
    decreases n - i
  {
    if i == n then []
    else (if Dropped(drop, i) then [] else [i]) + KeptFrom(n, drop, i + 1)
  }

  /** The survivors are exactly the kept positions' entries, in their
    * original order. */
  lemma {:induction false} SurvivorsAreKept<T>(xs: seq<T>, drop: seq<bool>, i: nat)
    requires i <= |xs|
    ensures var ks := KeptFrom(|xs|, drop, i);
      |SurvivorsFrom(xs, drop, i)| == |ks| &&
      forall j :: 0 <= j < |ks| ==> SurvivorsFrom(xs, drop, i)[j] == xs[ks[j]]
    decreases |xs| - i
  {
    if i < |xs| {
      SurvivorsAreKept(xs, drop, i + 1);
      var rest, tail := KeptFrom(|xs|, drop, i + 1), SurvivorsFrom(xs, drop, i + 1);
      if Dropped(drop, i) {
        assert KeptFrom(|xs|, drop, i) == rest;
        assert SurvivorsFrom(xs, drop, i) == tail;
      } else {
        var ks, ss := [i] + rest, [xs[i]] + tail;
        assert KeptFrom(|xs|, drop, i) == ks;
        assert SurvivorsFrom(xs, drop, i) == ss;
        forall j | 0 <= j < |ks|
          ensures ss[j] == xs[ks[j]]
        {
          if j > 0 {
            assert ss[j] == tail[j - 1] && ks[j] == rest[j - 1];
          }
        }
      }
    }
  }

  /** Nothing from a position at or beyond the mask is dropped. */
  lemma {:induction false} SurvivorsBeyondMask<T>(xs: seq<T>, drop: seq<bool>, i: nat)
    requires |drop| <= i <= |xs|
    ensures SurvivorsFrom(xs, drop, i) == xs[i..]
    decreases |xs| - i
  {
    if i < |xs| {
      SurvivorsBeyondMask(xs, drop, i + 1);
      assert xs[i..] == [xs[i]] + xs[i + 1..];
    }
  }

  /** A list while the reverse deletion loop is at position `k`: positions
    * below `k` are untouched, the rest are already compacted. */
  function PartlyCompacted<T>(xs: seq<T>, drop: seq<bool>, k: nat): (r: seq<T>)
    ensures k <= |xs| ==> k <= |r| && r[..k] == xs[..k]
  {
    var m := Min(k, |xs|);
    xs[..m] + SurvivorsFrom(xs, drop, m)
  }

  /** `del xs[k]`, guarded by `k < len(xs)` as in the loop. */
  function DeleteAt<T>(xs: seq<T>, k: nat): (r: seq<T>)
    ensures k < |xs| ==> |r| == |xs| - 1 && r[..k] == xs[..k] && r[k..] == xs[k + 1..]
    ensures k >= |xs| ==> r == xs
  {
    if k < |xs| then xs[..k] + xs[k + 1..] else xs
  }

  /** One step of the reverse loop: deleting position `k` when it is
    * dropped extends the compacted suffix by one position. */
  lemma CompactStep<T>(xs: seq<T>, drop: seq<bool>, k: nat, cur: seq<T>)
    requires k < |drop| && cur == PartlyCompacted(xs, drop, k + 1)
    ensures PartlyCompacted(xs, drop, k) == if drop[k] then DeleteAt(cur, k) else cur
  {
    if k < |xs| {
      var tail := SurvivorsFrom(xs, drop, k + 1);
      assert xs[..k + 1] == xs[..k] + [xs[k]];
      if drop[k] {
        assert cur[..k] == xs[..k];
        assert cur[k + 1..] == tail;
      }
    }
  }

  lemma CompactEnds<T>(xs: seq<T>, drop: seq<bool>)
    ensures PartlyCompacted(xs, drop, 0) == Survivors(xs, drop)
    ensures PartlyCompacted(xs, drop, |drop|) == xs
  {
    assert xs[..0] == [];
    var m := Min(|drop|, |xs|);
    if m == |drop| {
      SurvivorsBeyondMask(xs, drop, m);
    }
    assert xs[..m] + xs[m..] == xs;
  }

  /** A sideband field read back per byte, for a frame of `n` bytes. */
  function Expand(s: Sideband, n: nat): seq<int>
  {
    match s
    case Absent => []
    case Single(v) => seq(n, _ => v)
    case PerByte(vs) => vs
  }

  /** The collapse of a sideband list: absent when empty, a single value
    * when all entries agree, the list itself otherwise. No information is
    * lost, and a list survives only when it holds two different values. */
  function Collapse(xs: seq<int>): (r: Sideband)
    ensures Expand(r, |xs|) == xs
    ensures r.Absent? <==> |xs| == 0
    ensures r.PerByte? ==> exists i :: 0 <= i < |xs| && xs[i] != xs[0]
  {
    if |xs| == 0 then Absent
    else if forall i :: 0 <= i < |xs| ==> xs[i] == xs[0] then Single(xs[0])
    else PerByte(xs)
  }

  predicate Compactable(frame: AxiStreamFrame)
    reads frame
  {
    frame.tkeep.PerByte? && frame.tid.PerByte? && frame.tdest.PerByte? && frame.tuser.PerByte? &&
    (|frame.tkeep.values| == 0 || |frame.tkeep.values| >= |frame.tdata|)
  }

  /** Compaction in place: the frame afterwards carries exactly the kept
    * bytes of data, `tid` and `tdest` in order, no `tkeep`, and every
    * sideband collapsed; `tuser` is collapsed without being filtered. */
  method CompactAxisNoTuser(frame: AxiStreamFrame) returns (r: AxiStreamFrame)
    requires Compactable(frame)
    modifies frame
    ensures r == frame
    ensures var drop := DropMask(old(frame.tkeep.values), |old(frame.tdata)|);
      frame.tdata == Survivors(old(frame.tdata), drop) &&
      frame.tkeep == Absent &&
      frame.tid == Collapse(Survivors(old(frame.tid.values), drop)) &&
      frame.tdest == Collapse(Survivors(old(frame.tdest.values), drop)) &&
      frame.tuser == Collapse(old(frame.tuser.values))
  {
    ghost var drop := DropMask(frame.tkeep.values, |frame.tdata|);
    ghost var data0, keep0, id0, dest0 := frame.tdata, frame.tkeep.values, frame.tid.values, frame.tdest.values;
    CompactEnds(data0, drop);
    CompactEnds(id0, drop);
    CompactEnds(dest0, drop);
    if |frame.tkeep.values| > 0 {
      var k := |frame.tdata|;
      CompactEnds(keep0, drop);
      while k > 0
        invariant 0 <= k <= |drop| == |data0| <= |keep0|
        invariant frame.tdata == PartlyCompacted(data0, drop, k)
        invariant frame.tkeep == PerByte(PartlyCompacted(keep0, drop, k))
        invariant frame.tid == PerByte(PartlyCompacted(id0, drop, k))
        invariant frame.tdest == PerByte(PartlyCompacted(dest0, drop, k))
        invariant frame.tuser == old(frame.tuser)
      {
        k := k - 1;
        var keep, id, dest := frame.tkeep.values, frame.tid.values, frame.tdest.values;
        assert keep[..k + 1] == keep0[..k + 1];
        assert keep[k] == keep0[k] by { assert keep[k] == keep[..k + 1][k]; }
        CompactStep(data0, drop, k, frame.tdata);
        CompactStep(keep0, drop, k, keep);
        CompactStep(id0, drop, k, id);
        CompactStep(dest0, drop, k, dest);
        if keep[k] == 0 {
          if k < |frame.tdata| {
            frame.tdata := frame.tdata[..k] + frame.tdata[k + 1..];
          }
          frame.tkeep := PerByte(DeleteAt(keep, k));
          frame.tid := PerByte(DeleteAt(id, k));
          frame.tdest := PerByte(DeleteAt(dest, k));
        }
      }
    }
    frame.tkeep := Absent;
    frame.tid := Collapse(frame.tid.values);
    frame.tdest := Collapse(frame.tdest.values);
    frame.tuser := Collapse(frame.tuser.values);
    r := frame;
  }
}

=== FILE: common.dfy ===
/** Definitions shared by the testbench models: bytes as Python integers,
  * powers of two and list flattening. */
module Common {

  datatype Option<T> = None | Some(value: T)

  /** A byte as the testbench handles it: a Python integer in 0..255. */
  type Byte = x: int | 0 <= x < 256

  function Min(a: int, b: int): int { if a <= b then a else b }

  function Max(a: int, b: int): int { if a <= b then b else a }

  function Pow2(n: nat): (r: nat)
    ensures r >= 1
  {
    if n == 0 then 1 else 2 * Pow2(n - 1)
  }

  lemma {:induction false} Pow2Add(a: nat, b: nat)
    ensures Pow2(a + b) == Pow2(a) * Pow2(b)
    decreases a
  {
    if a > 0 {
      Pow2Add(a - 1, b);
    }
  }

  lemma Pow2Byte(n: nat)
    ensures Pow2(8 * n + 8) == 256 * Pow2(8 * n)
  {
    Pow2Add(8, 8 * n);
    assert 8 * n + 8 == 8 + 8 * n;
  }

  /** Concatenation of a list of lists, in order. */
  function Flatten<T>(xss: seq<seq<T>>): (r: seq<T>)
    ensures xss == [] ==> r == []
  {
    if xss == [] then [] else xss[0] + Flatten(xss[1..])
  }

  lemma {:induction false} FlattenAppend<T>(a: seq<seq<T>>, b: seq<seq<T>>)
    ensures Flatten(a + b) == Flatten(a) + Flatten(b)
    decreases |a|
  {
    if a == [] {
      assert a + b == b;
    } else {
      assert (a + b)[1..] == a[1..] + b;
      FlattenAppend(a[1..], b);
    }
  }
}

=== FILE: crc.dfy ===
/** CRC-32 frame check sequence of section 3.2.9 of IEEE 802.3, as the
  * reference against which the CRC and MAC test benches check the hardware.
  * Octets are processed least significant bit first, so the shift register
  * runs in reflected form: the generator polynomial 0x04C11DB7 becomes
  * 0xEDB88320, the register starts at all ones and the result is
  * complemented. */
module Crc32 {
  import opened Common

  type Octet = bv8

  /** The generator polynomial, x^32 omitted, most significant term first. */
  const Generator: bv32 := 0x04C1_1DB7
  /** The generator with its bit order reversed, for LSB-first shifting. */
  const Reflected: bv32 := 0xEDB8_8320
  /** Remainder left in the register after a frame followed by its own FCS. */
  const Residue: bv32 := 0xDEBB_20E3

  /** The lowest `n` bits of `x` shifted, in reverse order, onto the low
    * end of `acc`. */
  function Reverse(x: bv32, n: nat, acc: bv32): bv32
    requires n <= 32
    decreases n
  {
    if n == 0 then acc else Reverse(x >> 1, n - 1, (acc << 1) | (x & 1))
  }

  /** The reflected constant is the generator read backwards, four bits at
    * a time. */
  lemma ReflectedIsReversedGenerator()
    ensures Reverse(Generator, 32, 0) == Reflected
  {
    assert Reverse(0x04C1_1DB7, 32, 0x0000_0000) == Reverse(0x004C_11DB, 28, 0x0000_000E);
    assert Reverse(0x004C_11DB, 28, 0x0000_000E) == Reverse(0x0004_C11D, 24, 0x0000_00ED);
    assert Reverse(0x0004_C11D, 24, 0x0000_00ED) == Reverse(0x0000_4C11, 20, 0x0000_0EDB);
    assert Reverse(0x0000_4C11, 20, 0x0000_0EDB) == Reverse(0x0000_04C1, 16, 0x0000_EDB8);
    assert Reverse(0x0000_04C1, 16, 0x0000_EDB8) == Reverse(0x0000_004C, 12, 0x000E_DB88);
    assert Reverse(0x0000_004C, 12, 0x000E_DB88) == Reverse(0x0000_0004, 8, 0x00ED_B883);
    assert Reverse(0x0000_0004, 8, 0x00ED_B883) == Reverse(0x0000_0000, 4, 0x0EDB_8832);
    assert Reverse(0x0000_0000, 4, 0x0EDB_8832) == Reverse(0x0000_0000, 0, 0xEDB8_8320);
  }

  /** One shift of the register, feeding back the polynomial when a one
    * falls out of the low end. */
  function ShiftBit(r: bv32): bv32
  {
    if r & 1 == 1 then (r >> 1) ^ Reflected else r >> 1
  }

  /** Eight shifts after folding one octet into the low end of the register. */
  function UpdateOctet(r: bv32, b: Octet): bv32
  {
    var x := r ^ (b as bv32);
    ShiftBit(ShiftBit(ShiftBit(ShiftBit(ShiftBit(ShiftBit(ShiftBit(ShiftBit(x))))))))
  }

  /** The register after feeding `s` in order, starting from `r`. */
  function Register(r: bv32, s: seq<Octet>): bv32
    decreases |s|
  {
    if s == [] then r else Register(UpdateOctet(r, s[0]), s[1..])
  }

  /** The CRC-32 value of a message: register preset to ones, result
    * inverted. A frame followed by this value as its FCS always checks: the
    * receiver's register ends at the residue, whatever the message. */
  function Crc(msg: seq<Octet>): (crc: bv32)
    ensures Register(0xFFFF_FFFF, msg + FcsOctets(crc)) == Residue
  {
    var reg := Register(0xFFFF_FFFF, msg);
    RegisterAppend(0xFFFF_FFFF, msg, FcsOctets(!reg));
    FcsLeavesResidue(reg);
    !reg
  }

  /** The FCS field: the CRC sent least significant octet first. */
  function FcsOctets(crc: bv32): (r: seq<Octet>)
    ensures |r| == 4
  {
    [(crc & 0xFF) as bv8, ((crc >> 8) & 0xFF) as bv8,
     ((crc >> 16) & 0xFF) as bv8, ((crc >> 24) & 0xFF) as bv8]
  }

  /** The register can be fed in pieces: this is what lets the hardware
    * consume a message one bus word at a time. */
  lemma {:induction false} RegisterAppend(r: bv32, a: seq<Octet>, b: seq<Octet>)
    ensures Register(r, a + b) == Register(Register(r, a), b)
    decreases |a|
  {
    if a == [] {
      assert a + b == b;
    } else {
      assert (a + b)[0] == a[0];
      assert (a + b)[1..] == a[1..] + b;
      RegisterAppend(UpdateOctet(r, a[0]), a[1..], b);
    }
  }

  /** Four octet updates with the complemented register, low octet first,
    * bring any register to the residue. */
  lemma ComplementClears(r: bv32)
    ensures var f := !r;
      UpdateOctet(UpdateOctet(UpdateOctet(UpdateOctet(r, (f & 0xFF) as bv8),
        ((f >> 8) & 0xFF) as bv8), ((f >> 16) & 0xFF) as bv8), ((f >> 24) & 0xFF) as bv8) == Residue
  {
  }

  /** A four-octet word fed at once is four octet updates, lane 0 first. */
  lemma RegisterFour(r: bv32, s: seq<Octet>)
    requires |s| == 4
    ensures Register(r, s) == UpdateOctet(UpdateOctet(UpdateOctet(UpdateOctet(r, s[0]), s[1]), s[2]), s[3])
  {
    var r1 := UpdateOctet(r, s[0]);
    var r2 := UpdateOctet(r1, s[1]);
    var r3 := UpdateOctet(r2, s[2]);
    var r4 := UpdateOctet(r3, s[3]);
    assert Register(r4, s[4..]) == r4;
    assert Register(r3, s[3..]) == Register(r4, s[4..]) by { assert s[3..][0] == s[3] && s[3..][1..] == s[4..]; }
    assert Register(r2, s[2..]) == Register(r3, s[3..]) by { assert s[2..][0] == s[2] && s[2..][1..] == s[3..]; }
    assert Register(r1, s[1..]) == Register(r2, s[2..]) by { assert s[1..][0] == s[1] && s[1..][1..] == s[2..]; }
  }

  /** Whatever the register holds, feeding it the FCS of that register value
    * leaves the fixed residue. */
  lemma FcsLeavesResidue(r: bv32)
    ensures Register(r, FcsOctets(!r)) == Residue
  {
    RegisterFour(r, FcsOctets(!r));
    ComplementClears(r);
  }

  /** States of the register at the start of each row of a message. */
  predicate RowsChain(rows: seq<seq<Octet>>, states: seq<bv32>)
  {
    |states| == |rows| + 1 &&
    forall k :: 0 <= k < |rows| ==> Register(states[k], rows[k]) == states[k + 1]
  }

  /** If each row takes the register from one recorded state to the next,
    * the whole message takes it from the first state to the last. */
  lemma {:induction false} ChainedRows(rows: seq<seq<Octet>>, states: seq<bv32>, k: nat)
    requires RowsChain(rows, states) && k <= |rows|
    ensures Register(states[k], Flatten(rows[k..])) == states[|rows|]
    decreases |rows| - k
  {
    if k < |rows| {
      assert rows[k..][1..] == rows[k + 1..];
      RegisterAppend(states[k], rows[k], Flatten(rows[k + 1..]));
      ChainedRows(rows, states, k + 1);
    } else {
      assert rows[k..] == [];
    }
  }

  /** The 60-octet message fed to the CRC block, one row per source line. */
  const CrcTestRows: seq<seq<Octet>> := [
    [0x00, 0x10, 0xA4, 0x7B, 0xEA, 0x80],
    [0x00, 0x12, 0x34, 0x56, 0x78, 0x90],
    [0x08, 0x00, 0x45, 0x00, 0x00, 0x2E],
    [0xB3, 0xFE, 0x00, 0x00, 0x80, 0x11],
    [0x05, 0x40, 0xC0, 0xA8, 0x00, 0x2C],
    [0xC0, 0xA8, 0x00, 0x04, 0x04, 0x00],
    [0x04, 0x00, 0x00, 0x1A, 0x2D, 0xE8],
    [0x00, 0x01, 0x02, 0x03, 0x04, 0x05],
    [0x06, 0x07, 0x08, 0x09, 0x0A, 0x0B],
    [0x0C, 0x0D, 0x0E, 0x0F, 0x10, 0x11]
  ]

  /** Register contents at the start of each row of the CRC test message. */
  const CrcTestStates: seq<bv32> := [
    0xFFFF_FFFF, 0xFD59_587B, 0x782E_400F, 0x2FE5_2CD4,
    0x6547_1BB5, 0x8E28_0ADD, 0x58E7_0130, 0x14C6_7C81,
    0x20EE_1E2C, 0x6272_812A, 0xE477_CE4C
  ]

  lemma CrcTestRow0() ensures Register(CrcTestStates[0], CrcTestRows[0]) == CrcTestStates[1] {}
  lemma CrcTestRow1() ensures Register(CrcTestStates[1], CrcTestRows[1]) == CrcTestStates[2] {}
  lemma CrcTestRow2() ensures Register(CrcTestStates[2], CrcTestRows[2]) == CrcTestStates[3] {}
  lemma CrcTestRow3() ensures Register(CrcTestStates[3], CrcTestRows[3]) == CrcTestStates[4] {}
  lemma CrcTestRow4() ensures Register(CrcTestStates[4], CrcTestRows[4]) == CrcTestStates[5] {}
  lemma CrcTestRow5() ensures Register(CrcTestStates[5], CrcTestRows[5]) == CrcTestStates[6] {}
  lemma CrcTestRow6() ensures Register(CrcTestStates[6], CrcTestRows[6]) == CrcTestStates[7] {}
  lemma CrcTestRow7() ensures Register(CrcTestStates[7], CrcTestRows[7]) == CrcTestStates[8] {}
  lemma CrcTestRow8() ensures Register(CrcTestStates[8], CrcTestRows[8]) == CrcTestStates[9] {}
  lemma CrcTestRow9() ensures Register(CrcTestStates[9], CrcTestRows[9]) == CrcTestStates[10] {}

  lemma CrcTestChain()
    ensures RowsChain(CrcTestRows, CrcTestStates)
  {
    forall k | 0 <= k < |CrcTestRows|
      ensures Register(CrcTestStates[k], CrcTestRows[k]) == CrcTestStates[k + 1]
    {
      if k == 0 {
        CrcTestRow0();
      } else if k == 1 {
        CrcTestRow1();
      } else if k == 2 {
        CrcTestRow2();
      } else if k == 3 {
        CrcTestRow3();
      } else if k == 4 {
        CrcTestRow4();
      } else if k == 5 {
        CrcTestRow5();
      } else if k == 6 {
        CrcTestRow6();
      } else if k == 7 {
        CrcTestRow7();
      } else if k == 8 {
        CrcTestRow8();
      } else if k == 9 {
        CrcTestRow9();
      }
    }
  }

  /** The value the CRC test bench expects on the output once the whole
    * message has been clocked in. */
  lemma CrcTestGolden()
    ensures Crc(Flatten(CrcTestRows)) == 0x1B88_31B3
  {
    CrcTestChain();
    ChainedRows(CrcTestRows, CrcTestStates, 0);
    assert CrcTestRows[0..] == CrcTestRows;
  }
}

=== FILE: gearbox.dfy ===
/** Reference model of the receive gearbox: 32-bit words from the transceiver
  * are spliced into a 67-bit buffer so that 66-bit 64B/66B blocks (clause 49
  * of IEEE 802.3) can be read back out as a 2-bit sync header and two 32-bit
  * data halves.  Bits are kept in list order, index 0 first. */
module RxGearbox {
  import opened Common

  /** One 66-bit block plus a copy of bit 0, used by the half-slip windows. */
  const BufferBits: nat := 67
  const BlockBits: nat := 66
  const WordBits: nat := 32
  /** 33 input words of 32 bits carry 16 blocks of 66 bits. */
  const Period: nat := 33

  /** Buffer offset at which each phase of the cycle inserts its input word. */
  const DataIdxs: seq<nat> := [0, 32, 64, 30, 62, 28, 60, 26, 58, 24, 56, 22, 54, 20, 52, 18, 50,
                               16, 48, 14, 46, 12, 44, 10, 42, 8, 40, 6, 38, 4, 36, 2, 34]

  /** Phase of the cycle counter within the 33-word period. */
  function Count(cycle: nat): (c: nat)
    ensures c < Period
  {
    cycle % Period
  }

  /** Closed form of the offset table, as in the slice formulation the table
    * replaced: 33 - count on odd phases, 66 - count on even phases other
    * than 0, and 0 at phase 0. */
  function InsertOffset(count: nat): nat
    requires count < Period
  {
    if count == 0 then 0 else if count % 2 == 1 then 33 - count else 66 - count
  }

  /** The verbatim table agrees with its closed form at every phase. */
  lemma DataIdxsClosedForm(count: nat)
    requires count < Period
    ensures |DataIdxs| == Period
    ensures DataIdxs[count] == InsertOffset(count)
  {
    assert count == 0 || count == 1 || count == 2 || count == 3 || count == 4 || count == 5
      || count == 6 || count == 7 || count == 8 || count == 9 || count == 10 || count == 11
      || count == 12 || count == 13 || count == 14 || count == 15 || count == 16 || count == 17
      || count == 18 || count == 19 || count == 20 || count == 21 || count == 22 || count == 23
      || count == 24 || count == 25 || count == 26 || count == 27 || count == 28 || count == 29
      || count == 30 || count == 31 || count == 32;
  }

  predicate WellSized<T>(buf: seq<T>, idata: seq<T>)
  {
    |buf| == BufferBits && |idata| >= WordBits
  }

  /** The value bit `bit` takes in one pass of the bit-select loop. */
  function SplicedBit<T>(buf: seq<T>, idata: seq<T>, count: nat, bit: nat): T
    requires WellSized(buf, idata) && count < Period && bit < BufferBits
  {
    var idx := InsertOffset(count);
    if count % 2 == 0 then
      if idx != 0 && idx <= bit < BlockBits then idata[bit - idx]
      else if bit < WordBits - count then idata[count + bit]
      else buf[bit]
    else if idx <= bit < idx + WordBits then idata[bit - idx]
    else buf[bit]
  }

  /** Each pass of the loop either keeps the buffer bit or copies one of the
    * first 32 input bits into it; the mirror bit 66 is always kept. */
  lemma SplicedBitSource<T>(buf: seq<T>, idata: seq<T>, count: nat, bit: nat)
    requires WellSized(buf, idata) && count < Period && bit < BufferBits
    ensures bit == BlockBits ==> SplicedBit(buf, idata, count, bit) == buf[bit]
    ensures SplicedBit(buf, idata, count, bit) == buf[bit] ||
            exists j :: 0 <= j < WordBits && SplicedBit(buf, idata, count, bit) == idata[j]
  {
  }

  /** The buffer after the bit-select loop, before bit 66 is re-mirrored. */
  function Splice<T>(buf: seq<T>, idata: seq<T>, count: nat): (r: seq<T>)
    requires WellSized(buf, idata) && count < Period
    ensures |r| == BufferBits
    ensures r[BlockBits] == buf[BlockBits]
  {
    seq(BufferBits, bit requires 0 <= bit < BufferBits => SplicedBit(buf, idata, count, bit))
  }

  /** The buffer after a whole call: spliced, then bit 66 copied from bit 0. */
  function Step<T>(buf: seq<T>, idata: seq<T>, count: nat): (r: seq<T>)
    requires WellSized(buf, idata) && count < Period
    ensures |r| == BufferBits && r[BlockBits] == r[0]
    ensures r[..BlockBits] == Splice(buf, idata, count)[..BlockBits]
  {
    var s := Splice(buf, idata, count);
    s[BlockBits := s[0]]
  }

  /** What one call returns. `obuf` is a snapshot of the buffer. */
  datatype RxOutput<T> = RxOutput(data: seq<T>, header: seq<T>, dataValid: bool,
                                  headerValid: bool, obuf: seq<T>, cycle: nat)

  /** The windows read out of the updated buffer `buf`; a half-slip of odd
    * parity moves every window up by one bit. */
  function Emit<T>(buf: seq<T>, cycle: nat, halfSlip: nat): (r: RxOutput<T>)
    requires |buf| == BufferBits
    ensures |r.data| == WordBits && |r.header| == 2
    ensures r.obuf == buf && r.cycle == cycle
    ensures !r.dataValid <==> cycle % Period == 0
    ensures r.headerValid ==> r.dataValid
    ensures r.header == buf[halfSlip % 2 .. halfSlip % 2 + 2]
  {
    var count := Count(cycle);
    var frameWord := count % 2 == 0;
    var shift := halfSlip % 2;
    RxOutput(
      data := if !frameWord then buf[shift + 2 .. shift + 34] else buf[shift + 34 .. shift + 66],
      header := buf[shift .. shift + 2],
      dataValid := count != 0,
      headerValid := count % 2 == 1,
      obuf := buf,
      cycle := cycle)
  }

  /** Which output window each phase presents: the header is valid exactly
    * on odd phases, and the data word is the half of the block that follows
    * the header on an odd phase and the second half on an even one, both
    * shifted by one bit after an odd number of half-slips. */
  lemma EmitWindows<T>(buf: seq<T>, cycle: nat, halfSlip: nat)
    requires |buf| == BufferBits
    ensures Emit(buf, cycle, halfSlip).headerValid <==> Count(cycle) % 2 == 1
    ensures Emit(buf, cycle, halfSlip).data ==
      if Count(cycle) % 2 == 1 then buf[halfSlip % 2 + 2 .. halfSlip % 2 + 34]
      else buf[halfSlip % 2 + 34 .. halfSlip % 2 + 66]
  {
  }

  /** The bit-select loop written as slices: on an odd phase one window
    * [33 - count, 65 - count) receives the word in order; on an even phase
    * other than 0 the head of the word closes the block at [66 - count, 66)
    * and its tail opens the next block at [0, 32 - count); at phase 0 the
    * word fills [0, 32).  Every other bit keeps its value. */
  lemma SpliceWindows<T>(buf: seq<T>, idata: seq<T>, count: nat)
    requires WellSized(buf, idata) && count < Period
    ensures count % 2 == 1 ==>
      Splice(buf, idata, count) == buf[..33 - count] + idata[..WordBits] + buf[65 - count..]
    ensures count % 2 == 0 && count > 0 ==>
      Splice(buf, idata, count) ==
        idata[count..WordBits] + buf[32 - count..66 - count] + idata[..count] + buf[BlockBits..]
    ensures count == 0 ==> Splice(buf, idata, count) == idata[..WordBits] + buf[WordBits..]
  {
    var s := Splice(buf, idata, count);
    if count % 2 == 1 {
      var t := buf[..33 - count] + idata[..WordBits] + buf[65 - count..];
      forall b | 0 <= b < BufferBits
        ensures s[b] == t[b]
      {
        if b < 33 - count {
        } else if b < 65 - count {
        } else {
        }
      }
      assert s == t;
    } else if count > 0 {
      var t := idata[count..WordBits] + buf[32 - count..66 - count] + idata[..count] + buf[BlockBits..];
      forall b | 0 <= b < BufferBits
        ensures s[b] == t[b]
      {
        if b < 32 - count {
        } else if b < 66 - count {
        } else if b < 66 {
        } else {
        }
      }
      assert s == t;
    } else {
      var t := idata[..WordBits] + buf[WordBits..];
      forall b | 0 <= b < BufferBits
        ensures s[b] == t[b]
      {
      }
      assert s == t;
    }
  }

  /** Buffer positions written in one call, listed in the order in which
    * they are filled from the rotated input word. */
  function WrittenPositions(count: nat): (ps: seq<nat>)
    requires count < Period
    ensures |ps| == WordBits
    ensures forall j, k :: 0 <= j < k < |ps| ==> ps[j] < ps[k]
    ensures forall j :: 0 <= j < |ps| ==> ps[j] < BlockBits
  {
    if count % 2 == 1 then seq(WordBits, j => 33 - count + j)
    else seq(WordBits, j => if j < 32 - count then j else 34 + j)
  }

  /** Every call writes exactly 32 of bits 0..65: the written bits, read in
    * buffer order, are the first 32 input bits rotated left by `count` on
    * even phases and unrotated on odd ones; every other bit is unchanged. */
  lemma SpliceWritesRotatedWord<T>(buf: seq<T>, idata: seq<T>, count: nat)
    requires WellSized(buf, idata) && count < Period
    ensures forall j :: 0 <= j < WordBits ==>
      Splice(buf, idata, count)[WrittenPositions(count)[j]] ==
        idata[(j + (if count % 2 == 0 then count else 0)) % WordBits]
    ensures forall b :: 0 <= b < BufferBits && b !in WrittenPositions(count) ==>
      Splice(buf, idata, count)[b] == buf[b]
  {
    var ps := WrittenPositions(count);
    var s := Splice(buf, idata, count);
    forall j | 0 <= j < WordBits
      ensures s[ps[j]] == idata[(j + (if count % 2 == 0 then count else 0)) % WordBits]
    {
      if count % 2 == 1 {
        assert ps[j] == 33 - count + j;
      } else if j < 32 - count {
        assert ps[j] == j && (j + count) % WordBits == j + count;
      } else {
        assert ps[j] == 34 + j && (j + count) % WordBits == j + count - 32;
      }
    }
    forall b | 0 <= b < BufferBits
      ensures b in ps || s[b] == buf[b]
    {
      if count % 2 == 1 {
        if 33 - count <= b < 65 - count {
          assert ps[b - (33 - count)] == b;
        }
      } else if b < 32 - count {
        assert ps[b] == b;
      } else if count > 0 && 66 - count <= b < 66 {
        assert ps[b - 34] == b;
      }
    }
  }

  /** Only the first 32 input bits are ever read. */
  lemma SpliceReadsFirstWord<T>(buf: seq<T>, idata: seq<T>, other: seq<T>, count: nat)
    requires WellSized(buf, idata) && WellSized(buf, other) && count < Period
    requires idata[..WordBits] == other[..WordBits]
    ensures Splice(buf, idata, count) == Splice(buf, other, count)
  {
    DataIdxsClosedForm(count);
    forall b | 0 <= b < BufferBits
      ensures SplicedBit(buf, idata, count, b) == SplicedBit(buf, other, count, b)
    {
      assert forall i :: 0 <= i < WordBits ==> idata[i] == idata[..WordBits][i];
      assert forall i :: 0 <= i < WordBits ==> other[i] == other[..WordBits][i];
    }
  }

  /** An odd half-slip parity reads the same windows as an even parity on the
    * buffer moved down by one bit. */
  lemma HalfSlipShiftsWindows<T>(buf: seq<T>, fillIn: T, cycle: nat, halfSlip: nat)
    requires |buf| == BufferBits && halfSlip % 2 == 1
    ensures Emit(buf, cycle, halfSlip).data == Emit(buf[1..] + [fillIn], cycle, 0).data
    ensures Emit(buf, cycle, halfSlip).header == Emit(buf[1..] + [fillIn], cycle, 0).header
  {
    var moved := buf[1..] + [fillIn];
    assert moved[2..34] == buf[3..35];
    assert moved[34..66] == buf[35..67];
    assert moved[0..2] == buf[1..3];
  }

  predicate AllWords<T>(words: seq<seq<T>>)
  {
    forall i :: 0 <= i < |words| ==> |words[i]| == WordBits
  }

  /** Consecutive calls without slip and with even half-slip parity. */
  function Run<T>(buf: seq<T>, words: seq<seq<T>>, cycle: nat): (outs: seq<RxOutput<T>>)
    requires |buf| == BufferBits && AllWords(words)
    ensures |outs| == |words|
    decreases |words|
  {
    if words == [] then []
    else
      var next := Step(buf, words[0], Count(cycle));
      [Emit(next, cycle, 0)] + Run(next, words[1..], cycle + 1)
  }

  /** The bits a consumer takes from a run: the header where it is valid,
    * then the data where it is valid. */
  function Delivered<T>(outs: seq<RxOutput<T>>): seq<T>
  {
    if outs == [] then []
    else
      (if outs[0].headerValid then outs[0].header else [])
      + (if outs[0].dataValid then outs[0].data else [])
      + Delivered(outs[1..])
  }

  /** Starting a period, the first word lands in bits 0..31 unchanged. */
  lemma PhaseZeroLoadsWord<T>(buf: seq<T>, word: seq<T>)
    requires |buf| == BufferBits && |word| == WordBits
    ensures Step(buf, word, 0)[..WordBits] == word
  {
    SpliceWindows(buf, word, 0);
  }

  /** Bit-level form of an odd-phase call, below bit 66. */
  lemma OddStepBits<T>(buf: seq<T>, w: seq<T>, c: nat)
    requires WellSized(buf, w) && c < Period && c % 2 == 1
    ensures forall b :: 0 <= b < BlockBits ==>
      Step(buf, w, c)[b] == if 33 - c <= b < 65 - c then w[b - (33 - c)] else buf[b]
  {
  }

  /** Bit-level form of an even-phase call other than phase 0, below bit 66. */
  lemma EvenStepBits<T>(buf: seq<T>, w: seq<T>, c: nat)
    requires WellSized(buf, w) && c < Period && c % 2 == 0 && c > 0
    ensures forall b :: 0 <= b < BlockBits ==>
      Step(buf, w, c)[b] == if 66 - c <= b then w[b - (66 - c)]
                            else if b < 32 - c then w[c + b]
                            else buf[b]
  {
  }

  lemma CountSuccessor(cycle: nat)
    requires Count(cycle) % 2 == 1
    ensures Count(cycle + 1) == Count(cycle) + 1
    ensures Count(cycle + 2) == if Count(cycle) == 31 then 0 else Count(cycle) + 2
  {
    var c, q := Count(cycle), cycle / Period;
    assert cycle == Period * q + c;
    CountOf(q, c + 1);
    if c < 31 {
      CountOf(q, c + 2);
    } else {
      CountOf(q + 1, 0);
    }
  }

  /** The phase of a cycle written as whole periods plus a remainder. */
  lemma CountOf(q: nat, r: nat)
    requires r < Period
    ensures Count(Period * q + r) == r
  {
  }


  /** An odd-phase call: below bit 34 the buffer holds the tail of the
    * previous word followed by the head of the new one, and the rest of the
    * new word follows up to bit 65 - count. */
  lemma OddCallLayout<T>(buf: seq<T>, prev: seq<T>, w: seq<T>, c: nat)
    requires |buf| == BufferBits && |prev| == WordBits && |w| == WordBits
    requires c < Period && c % 2 == 1 && buf[..33 - c] == prev[c - 1..]
    ensures Step(buf, w, c)[..34] == prev[c - 1..] + w[..c + 1]
    ensures Step(buf, w, c)[34..65 - c] == w[c + 1..]
  {
    var b1 := Step(buf, w, c);
    OddStepBits(buf, w, c);
    forall j | 0 <= j < 34
      ensures b1[j] == (prev[c - 1..] + w[..c + 1])[j]
    {
      if j < 33 - c {
        assert buf[j] == buf[..33 - c][j];
      }
    }
  }

  /** The even-phase call `c + 1` that follows the odd phase `c`: the head
    * of the new word closes the block at bits [65 - c, 66) and its tail
    * starts the next block at bit 0. */
  lemma EvenCallLayout<T>(b1: seq<T>, w: seq<T>, c: nat)
    requires |b1| == BufferBits && |w| == WordBits && c < 32 && c % 2 == 1
    ensures Step(b1, w, c + 1)[34..66] == b1[34..65 - c] + w[..c + 1]
    ensures c < 31 ==> Step(b1, w, c + 1)[..31 - c] == w[c + 1..]
  {
    var b2 := Step(b1, w, c + 1);
    EvenStepBits(b1, w, c + 1);
    forall j | 34 <= j < 66
      ensures b2[j] == (b1[34..65 - c] + w[..c + 1])[j - 34]
    {
    }
  }

  /** An odd phase followed by the next even phase completes one block:
    * the header and first data half come from the first call, the second
    * data half from the second call, and together they are the 66 input bits
    * starting where the previous block ended. The second call also leaves the
    * unread tail of its word at the bottom of the buffer. */
  lemma BlockRealignment<T>(buf: seq<T>, prev: seq<T>, w1: seq<T>, w2: seq<T>, cycle: nat)
    requires |buf| == BufferBits && |prev| == WordBits && |w1| == WordBits && |w2| == WordBits
    requires Count(cycle) % 2 == 1
    requires buf[..33 - Count(cycle)] == prev[Count(cycle) - 1..]
    ensures var b1 := Step(buf, w1, Count(cycle));
            var b2 := Step(b1, w2, Count(cycle + 1));
            var o1 := Emit(b1, cycle, 0);
            var o2 := Emit(b2, cycle + 1, 0);
            o1.headerValid && o1.dataValid && !o2.headerValid && o2.dataValid &&
            o1.header + o1.data + o2.data == prev[Count(cycle) - 1..] + w1 + w2[..Count(cycle) + 1] &&
            (Count(cycle) < 31 ==> b2[..31 - Count(cycle)] == w2[Count(cycle) + 1..])
  {
    var c := Count(cycle);
    CountSuccessor(cycle);
    var b1 := Step(buf, w1, c);
    var b2 := Step(b1, w2, c + 1);
    var o1 := Emit(b1, cycle, 0);
    var o2 := Emit(b2, cycle + 1, 0);
    assert o1.header + o1.data == prev[c - 1..] + w1[..c + 1] by {
      OddCallLayout(buf, prev, w1, c);
      assert o1.header + o1.data == b1[..34];
    }
    assert o2.data == w1[c + 1..] + w2[..c + 1] by {
      OddCallLayout(buf, prev, w1, c);
      EvenCallLayout(b1, w2, c);
    }
    assert c < 31 ==> b2[..31 - c] == w2[c + 1..] by {
      EvenCallLayout(b1, w2, c);
    }
    assert w1 == w1[..c + 1] + w1[c + 1..];
  }

  lemma RunTwo<T>(buf: seq<T>, words: seq<seq<T>>, cycle: nat)
    requires |buf| == BufferBits && AllWords(words) && |words| >= 2
    ensures var b1 := Step(buf, words[0], Count(cycle));
            var b2 := Step(b1, words[1], Count(cycle + 1));
            Run(buf, words, cycle) ==
              [Emit(b1, cycle, 0)] + ([Emit(b2, cycle + 1, 0)] + Run(b2, words[2..], cycle + 2))
  {
    assert words[1..][1..] == words[2..];
  }

  /** What a consumer takes from an odd phase followed by an even one. */
  lemma DeliveredPair<T>(o1: RxOutput<T>, o2: RxOutput<T>, rest: seq<RxOutput<T>>)
    requires o1.headerValid && o1.dataValid && !o2.headerValid && o2.dataValid
    ensures Delivered([o1] + ([o2] + rest)) == o1.header + o1.data + o2.data + Delivered(rest)
  {
    assert ([o1] + ([o2] + rest))[1..] == [o2] + rest;
    assert ([o2] + rest)[1..] == rest;
  }

  lemma JoinSplitWord<T>(a: seq<T>, w1: seq<T>, w2: seq<T>, f: seq<T>, k: nat)
    requires k <= |w2|
    ensures (a + w1 + w2[..k]) + (w2[k..] + f) == a + (w1 + (w2 + f))
  {
    assert w2[..k] + w2[k..] == w2;
  }

  /** From an odd phase to the end of the period, the run delivers the rest of
    * the previous word followed by all the remaining words. */
  lemma {:induction false} PairsRealign<T>(buf: seq<T>, prev: seq<T>, words: seq<seq<T>>, cycle: nat)
    requires |buf| == BufferBits && |prev| == WordBits && AllWords(words)
    requires Count(cycle) % 2 == 1 && |words| == Period - Count(cycle)
    requires buf[..33 - Count(cycle)] == prev[Count(cycle) - 1..]
    ensures Delivered(Run(buf, words, cycle)) == prev[Count(cycle) - 1..] + Flatten(words)
    decreases |words|
  {
    var c := Count(cycle);
    var w1, w2, rest := words[0], words[1], words[2..];
    CountSuccessor(cycle);
    BlockRealignment(buf, prev, w1, w2, cycle);
    var b1 := Step(buf, w1, c);
    var b2 := Step(b1, w2, c + 1);
    var o1 := Emit(b1, cycle, 0);
    var o2 := Emit(b2, cycle + 1, 0);
    var tail := Run(b2, rest, cycle + 2);
    RunTwo(buf, words, cycle);
    DeliveredPair(o1, o2, tail);
    assert Flatten(words) == w1 + (w2 + Flatten(rest));
    if rest == [] {
      assert w2[..c + 1] == w2;
    } else {
      PairsRealign(b2, w2, rest, cycle + 2);
      JoinSplitWord(prev[c - 1..], w1, w2, Flatten(rest), c + 1);
    }
  }

  /** Over one whole period of 33 words starting at phase 0, the valid headers
    * and data halves delivered in order are exactly the input bits in order:
    * 16 blocks of 66 bits. */
  lemma PeriodDeliversBlocks<T>(buf: seq<T>, words: seq<seq<T>>, cycle: nat)
    requires |buf| == BufferBits && AllWords(words) && |words| == Period && Count(cycle) == 0
    ensures Delivered(Run(buf, words, cycle)) == Flatten(words)
    ensures |Delivered(Run(buf, words, cycle))| == 16 * BlockBits
  {
    var b0 := Step(buf, words[0], 0);
    PhaseZeroLoadsWord(buf, words[0]);
    assert Count(cycle + 1) == 1;
    assert Run(buf, words, cycle) == [Emit(b0, cycle, 0)] + Run(b0, words[1..], cycle + 1);
    PairsRealign(b0, words[0], words[1..], cycle + 1);
    assert Flatten(words) == words[0] + Flatten(words[1..]);
    FlattenLength(words);
  }

  lemma {:induction false} FlattenLength<T>(words: seq<seq<T>>)
    requires AllWords(words)
    ensures |Flatten(words)| == WordBits * |words|
    decreases |words|
  {
    if words != [] {
      FlattenLength(words[1..]);
    }
  }

  /** The gearbox object: the buffer is updated in place, the counters advance. */
  class RxGearboxModel<T> {
    var obuf: array<T>
    var cycle: nat
    var halfSlip: nat

    ghost predicate Valid()
      reads this, obuf
    {
      obuf.Length == BufferBits && obuf[BlockBits] == obuf[0]
    }

    /** `fill` is the initial bit value: 0 for the integer model, "XXX" for
      * the string model used to trace where each bit comes from. */
    constructor (fill: T)
      ensures Valid() && fresh(obuf)
      ensures obuf[..] == seq(BufferBits, _ => fill)
      ensures cycle == 0 && halfSlip == 0
    {
      obuf := new T[BufferBits](_ => fill);
      cycle := 0;
      halfSlip := 0;
    }

    method Next(idata: seq<T>, slip: bool) returns (r: RxOutput<T>)
      requires Valid() && |idata| >= WordBits
      modifies this, obuf
      ensures Valid() && obuf == old(obuf)
      ensures obuf[..] == Step(old(obuf[..]), idata, Count(old(cycle)))
      ensures r == Emit(obuf[..], old(cycle), old(halfSlip))
      ensures cycle == if slip then old(cycle) else old(cycle) + 1
      ensures halfSlip == if slip then old(halfSlip) + 1 else old(halfSlip)
    {
      var count := cycle % 33;
      SpliceInPlace(idata, count);
      obuf[66] := obuf[0];
      var data, header;
      ghost var after := obuf[..];
      if halfSlip % 2 == 0 {
        data := if count % 2 == 1 then obuf[2..34] else obuf[34..66];
        header := obuf[0..2];
        assert data == if count % 2 == 1 then after[2..34] else after[34..66];
      } else {
        data := if count % 2 == 1 then obuf[3..35] else obuf[35..67];
        header := obuf[1..3];
        assert data == if count % 2 == 1 then after[3..35] else after[35..67];
      }
      r := RxOutput(data, header, count != 0, count % 2 == 1, obuf[..], cycle);
      if !slip {
        cycle := cycle + 1;
      }
      if slip {
        halfSlip := halfSlip + 1;
      }
    }

    /** The bit-select loop of one call: every buffer bit takes its spliced
      * value, the counters untouched. */
    method SpliceInPlace(idata: seq<T>, count: nat)
      requires obuf.Length == BufferBits && |idata| >= WordBits && count < Period
      modifies obuf
      ensures obuf[..] == Splice(old(obuf[..]), idata, count)
    {
      DataIdxsClosedForm(count);
      ghost var before := obuf[..];
      for bit := 0 to obuf.Length
        invariant obuf.Length == BufferBits
        invariant forall b :: 0 <= b < bit ==> obuf[b] == SplicedBit(before, idata, count, b)
        invariant forall b :: bit <= b < BufferBits ==> obuf[b] == before[b]
      {
        var idx := DataIdxs[count];
        if count % 2 == 0 {
          if idx != 0 && bit >= idx && bit < 66 {
            obuf[bit] := idata[bit - idx];
          } else if bit < 32 - count {
            obuf[bit] := idata[count + bit];
          }
        } else {
          if bit >= idx && bit < idx + 32 {
            obuf[bit] := idata[bit - idx];
          }
        }
      }
      assert obuf[..] == Splice(before, idata, count);
    }
  }

  /** Two slip calls in a row leave the cycle where it was and restore the
    * half-slip parity, whatever words they splice in. */
  method SlipTwice<T>(g: RxGearboxModel<T>, w1: seq<T>, w2: seq<T>)
    requires g.Valid() && |w1| >= WordBits && |w2| >= WordBits
    modifies g, g.obuf
    ensures g.Valid()
    ensures g.cycle == old(g.cycle)
    ensures g.halfSlip == old(g.halfSlip) + 2 && g.halfSlip % 2 == old(g.halfSlip) % 2
  {
    var _ := g.Next(w1, true);
    var _ := g.Next(w2, true);
  }
}

=== FILE: lanes.dfy ===
/** How the CRC and MAC test benches present a byte vector to a bus of
  * `nbytes` byte lanes: the vector is cut into bus-sized chunks, each chunk
  * is packed little-endian into one data word with a keep mask of one bit
  * per present byte, and the MAC bench marks the last chunk with `tlast` and
  * waits while the sink is not ready. */
module LanePacking {
  import opened Common

  /** Byte lanes of a bus `width` bits wide; the benches refuse a width that
    * is not a whole number of bytes. */
  function BytesPerWord(width: nat): (r: Option<nat>)
    ensures r.Some? <==> width % 8 == 0
    ensures r.Some? ==> 8 * r.value == width
  {
    if width % 8 == 0 then Some(width / 8) else None
  }

  /** Consecutive slices of `size` elements; the last may be shorter. */
  function Chunks<T>(s: seq<T>, size: nat): (r: seq<seq<T>>)
    requires size > 0
    ensures forall i :: 0 <= i < |r| ==> 0 < |r[i]| <= size
    ensures forall i :: 0 <= i < |r| - 1 ==> |r[i]| == size
    decreases |s|
  {
    if |s| == 0 then []
    else if |s| <= size then [s]
    else [s[..size]] + Chunks(s[size..], size)
  }

  /** There are ceil(n / size) chunks: the fewest slices of `size` that
    * cover the vector. */
  lemma {:induction false} ChunksCount<T>(s: seq<T>, size: nat)
    requires size > 0
    ensures (|Chunks(s, size)| - 1) * size < |s| <= |Chunks(s, size)| * size
    decreases |s|
  {
    if |s| > size {
      var n := |Chunks(s[size..], size)|;
      ChunksCount(s[size..], size);
      assert |Chunks(s, size)| == n + 1;
      assert (n + 1) * size == n * size + size;
    }
  }

  /** Joining the chunks gives back the vector: nothing is padded or lost. */
  lemma {:induction false} ChunksFlatten<T>(s: seq<T>, size: nat)
    requires size > 0
    ensures Flatten(Chunks(s, size)) == s
    decreases |s|
  {
    if |s| == 0 {
    } else if |s| <= size {
      assert Flatten([s]) == s + Flatten([s][1..]);
    } else {
      var rest := Chunks(s[size..], size);
      assert ([s[..size]] + rest)[1..] == rest;
      ChunksFlatten(s[size..], size);
      assert s[..size] + s[size..] == s;
    }
  }

  /** Chunk `j` is the slice starting at `j * size`, cut short at the end. */
  lemma {:induction false} ChunkAt<T>(s: seq<T>, size: nat, j: nat)
    requires size > 0 && j < |Chunks(s, size)|
    ensures j * size < |s|
    ensures Chunks(s, size)[j] == s[j * size .. Min(j * size + size, |s|)]
    decreases |s|
  {
    if j > 0 {
      ChunksTail(s, size, j);
      var js := j * size;
      assert (j - 1) * size == js - size;
      ChunkAt(s[size..], size, j - 1);
      var hi := Min(js + size, |s|);
      assert Min((j - 1) * size + size, |s| - size) == hi - size;
      SliceOfDrop(s, size, js - size, hi - size);
    }
  }

  /** Past the first chunk, the chunks are those of the rest of the vector. */
  lemma ChunksTail<T>(s: seq<T>, size: nat, j: nat)
    requires size > 0 && 0 < j < |Chunks(s, size)|
    ensures |s| > size && j - 1 < |Chunks(s[size..], size)|
    ensures Chunks(s, size)[j] == Chunks(s[size..], size)[j - 1]
  {
  }

  lemma SliceOfDrop<T>(s: seq<T>, d: nat, lo: nat, hi: nat)
    requires lo <= hi && d + hi <= |s|
    ensures s[d..][lo..hi] == s[d + lo .. d + hi]
  {
  }

  /** The little-endian value of a byte sequence: byte k weighs 2^(8k). */
  function LittleEndian(s: seq<Byte>): nat
  {
    if s == [] then 0 else s[0] + 256 * LittleEndian(s[1..])
  }

  lemma {:induction false} LittleEndianBound(s: seq<Byte>)
    ensures LittleEndian(s) < Pow2(8 * |s|)
    decreases |s|
  {
    if s != [] {
      LittleEndianBound(s[1..]);
      Pow2Byte(|s| - 1);
      assert 8 * (|s| - 1) + 8 == 8 * |s|;
    }
  }

  lemma {:induction false} LittleEndianAppend(p: seq<Byte>, x: Byte)
    ensures LittleEndian(p + [x]) == LittleEndian(p) + x * Pow2(8 * |p|)
    decreases |p|
  {
    if p == [] {
      assert LittleEndian([x]) == x + 256 * LittleEndian([x][1..]);
    } else {
      assert (p + [x])[1..] == p[1..] + [x];
      LittleEndianAppend(p[1..], x);
      var w := Pow2(8 * (|p| - 1));
      assert Pow2(8 * |p|) == 256 * w by {
        Pow2Byte(|p| - 1);
        assert 8 * (|p| - 1) + 8 == 8 * |p|;
      }
      calc {
        LittleEndian(p + [x]);
        p[0] + 256 * LittleEndian(p[1..] + [x]);
        p[0] + 256 * (LittleEndian(p[1..]) + x * w);
        p[0] + 256 * LittleEndian(p[1..]) + 256 * (x * w);
        { assert 256 * (x * w) == x * (256 * w); }
        LittleEndian(p) + x * Pow2(8 * |p|);
      }
    }
  }

  /** Python's `|` on non-negative integers, bit by bit. */
  function BitOr(a: nat, b: nat): nat
    decreases a + b
  {
    if a == 0 then b
    else if b == 0 then a
    else 2 * BitOr(a / 2, b / 2) + (if a % 2 == 1 || b % 2 == 1 then 1 else 0)
  }

  /** Or-ing a value shifted above every bit of `a` is addition. */
  lemma {:induction false} OrDisjoint(a: nat, v: nat, k: nat)
    requires a < Pow2(k)
    ensures BitOr(a, v * Pow2(k)) == a + v * Pow2(k)
    decreases k
  {
    if k == 0 {
      assert a == 0;
    } else if a != 0 && v != 0 {
      var high := v * Pow2(k);
      assert high == 2 * (v * Pow2(k - 1));
      assert high / 2 == v * Pow2(k - 1) && high % 2 == 0;
      OrDisjoint(a / 2, v, k - 1);
    }
  }

  /** Or-ing byte `i` in at bit 8i extends the packed prefix by that byte,
    * and or-ing in bit i extends the valid mask by one bit. */
  lemma PackStep(chunk: seq<Byte>, i: nat)
    requires i < |chunk|
    ensures BitOr(LittleEndian(chunk[..i]), chunk[i] * Pow2(8 * i)) == LittleEndian(chunk[..i + 1])
    ensures BitOr(Pow2(i) - 1, Pow2(i)) == Pow2(i + 1) - 1
  {
    LittleEndianBound(chunk[..i]);
    OrDisjoint(LittleEndian(chunk[..i]), chunk[i], 8 * i);
    OrDisjoint(Pow2(i) - 1, 1, i);
    LittleEndianAppend(chunk[..i], chunk[i]);
    assert chunk[..i + 1] == chunk[..i] + [chunk[i]];
  }

  lemma WeightedByte(b: Byte, weight: nat)
    ensures b * weight >= 0
  {
  }

  /** The lane-packing loop of both benches: byte k is or-ed in at bit 8k and
    * valid bit k is set. */
  method PackLanes(chunk: seq<Byte>) returns (ivalue: nat, ivalid: nat)
    ensures ivalue == LittleEndian(chunk)
    ensures ivalid == Pow2(|chunk|) - 1
  {
    ivalue, ivalid := 0, 0;
    for i := 0 to |chunk|
      invariant ivalue == LittleEndian(chunk[..i])
      invariant ivalid == Pow2(i) - 1
    {
      PackStep(chunk, i);
      var weight := Pow2(8 * i);
      WeightedByte(chunk[i], weight);
      ivalue := BitOr(ivalue, chunk[i] * weight);
      ivalid := BitOr(ivalid, Pow2(i));
    }
    assert chunk[..|chunk|] == chunk;
  }

  /** Byte lane `k` of a packed word. */
  function Lane(v: nat, k: nat): (r: nat)
    ensures r < 256
  {
    if k == 0 then v % 256 else Lane(v / 256, k - 1)
  }

  /** Bit `k` of a mask. */
  function Bit(v: nat, k: nat): (r: nat)
    ensures r < 2
  {
    if k == 0 then v % 2 else Bit(v / 2, k - 1)
  }

  lemma {:induction false} LaneOfZero(k: nat)
    ensures Lane(0, k) == 0
  {
    if k > 0 {
      LaneOfZero(k - 1);
    }
  }

  lemma {:induction false} BitOfZero(k: nat)
    ensures Bit(0, k) == 0
  {
    if k > 0 {
      BitOfZero(k - 1);
    }
  }

  /** Lane `k` of the packed word is byte `k` of the chunk, and every lane at
    * or beyond the chunk's length is zero. */
  lemma {:induction false} LaneOfLittleEndian(s: seq<Byte>, k: nat)
    ensures Lane(LittleEndian(s), k) == if k < |s| then s[k] else 0
    decreases k
  {
    if s == [] {
      LaneOfZero(k);
    } else if k > 0 {
      assert LittleEndian(s) / 256 == LittleEndian(s[1..]);
      LaneOfLittleEndian(s[1..], k - 1);
    }
  }

  /** The keep mask has exactly bits 0 .. n-1 set, least significant first. */
  lemma {:induction false} MaskBits(n: nat, k: nat)
    ensures Bit(Pow2(n) - 1, k) == if k < n then 1 else 0
    decreases k
  {
    if n == 0 {
      BitOfZero(k);
    } else if k > 0 {
      assert (Pow2(n) - 1) / 2 == Pow2(n - 1) - 1;
      MaskBits(n - 1, k - 1);
    }
  }

  /** The bytes a sink takes from a word: lane k for each set mask bit k,
    * in lane order, among the first `nbytes` lanes. */
  function Unpack(value: nat, mask: nat, nbytes: nat): seq<Byte>
  {
    UnpackFrom(value, mask, 0, nbytes)
  }

  function UnpackFrom(value: nat, mask: nat, k: nat, nbytes: nat): seq<Byte>
    decreases nbytes - k
  {
    if k >= nbytes then []
    else (if Bit(mask, k) == 1 then [Lane(value, k) as Byte] else []) + UnpackFrom(value, mask, k + 1, nbytes)
  }

  lemma {:induction false} UnpackFromPacked(s: seq<Byte>, mask: nat, k: nat, nbytes: nat)
    requires |s| <= nbytes && k <= nbytes && mask + 1 == Pow2(|s|)
    ensures UnpackFrom(LittleEndian(s), mask, k, nbytes) == if k < |s| then s[k..] else []
    decreases nbytes - k
  {
    if k < nbytes {
      var v := LittleEndian(s);
      MaskBits(|s|, k);
      LaneOfLittleEndian(s, k);
      UnpackFromPacked(s, mask, k + 1, nbytes);
      var head := if Bit(mask, k) == 1 then [Lane(v, k) as Byte] else [];
      assert UnpackFrom(v, mask, k, nbytes) == head + UnpackFrom(v, mask, k + 1, nbytes);
      if k < |s| {
        assert head == [s[k]];
        assert s[k..] == [s[k]] + s[k + 1..];
      } else {
        assert head == [];
      }
    }
  }

  /** Unpacking a packed chunk by its keep mask gives the chunk back. */
  lemma PackUnpack(s: seq<Byte>, mask: nat, nbytes: nat)
    requires |s| <= nbytes && mask == Pow2(|s|) - 1
    ensures Unpack(LittleEndian(s), mask, nbytes) == s
  {
    UnpackFromPacked(s, mask, 0, nbytes);
    assert s[0..] == s;
  }

  /** One AXI-Stream transfer driven by the MAC bench. */
  datatype Beat = Beat(tdata: nat, tkeep: nat, tlast: bool)

  /** The transfers for a chunked vector: packed data and keep mask, with
    * `tlast` on the final chunk only. */
  function Beats(chunks: seq<seq<Byte>>): (r: seq<Beat>)
    ensures |r| == |chunks|
    ensures forall i :: 0 <= i < |r| ==> (r[i].tlast <==> i == |r| - 1)
  {
    seq(|chunks|, i requires 0 <= i < |chunks| =>
      Beat(LittleEndian(chunks[i]), Pow2(|chunks[i]|) - 1, i == |chunks| - 1))
  }

  /** The sink recovers the vector from the beats, and exactly the final beat
    * carries `tlast`. */
  lemma BeatsCarryVector(tv: seq<Byte>, nbytes: nat)
    requires nbytes > 0
    ensures var b := Beats(Chunks(tv, nbytes));
      Flatten(seq(|b|, i requires 0 <= i < |b| => Unpack(b[i].tdata, b[i].tkeep, nbytes))) == tv &&
      (forall i :: 0 <= i < |b| ==> (b[i].tlast <==> i == |b| - 1))
  {
    var cs := Chunks(tv, nbytes);
    var b := Beats(cs);
    var unpacked := seq(|b|, i requires 0 <= i < |b| => Unpack(b[i].tdata, b[i].tkeep, nbytes));
    forall i | 0 <= i < |b|
      ensures unpacked[i] == cs[i]
    {
      PackUnpack(cs[i], b[i].tkeep, nbytes);
    }
    assert unpacked == cs;
    ChunksFlatten(tv, nbytes);
  }

  /** Consecutive not-ready clocks the MAC bench tolerates per vector. */
  const StallLimit: nat := 40

  /** Clocks among the first `t` at which the sink was not ready. */
  function StallClocks(ready: nat -> bool, t: nat): (n: nat)
    ensures n <= t
  {
    if t == 0 then 0 else StallClocks(ready, t - 1) + (if ready(t - 1) then 0 else 1)
  }

  /** The MAC bench's transmit loop for one vector. `ready(t)` is the sink's
    * ready signal at clock `t` counted from the start of the vector. The
    * stall counter is not reset between chunks, so the vector fails once it
    * has waited 40 clocks in total. */
  method DriveVector(tv: seq<Byte>, nbytes: nat, ready: nat -> bool)
    returns (beats: seq<Beat>, clocks: nat, timedOut: bool)
    requires nbytes > 0
    ensures StallClocks(ready, clocks) <= StallLimit
    ensures clocks == |beats| + StallClocks(ready, clocks)
    ensures timedOut <==> StallClocks(ready, clocks) == StallLimit
    ensures !timedOut ==> beats == Beats(Chunks(tv, nbytes))
    ensures timedOut ==> |beats| < |Chunks(tv, nbytes)| && beats == Beats(Chunks(tv, nbytes))[..|beats|]
  {
    var tvc := Chunks(tv, nbytes);
    var timeout := 0;
    beats, clocks, timedOut := [], 0, false;
    var i := 0;
    while i < |tvc|
      invariant 0 <= i <= |tvc|
      invariant beats == Beats(tvc)[..i]
      invariant timeout == StallClocks(ready, clocks) < StallLimit
      invariant clocks == i + timeout
    {
      while !ready(clocks)
        invariant timeout == StallClocks(ready, clocks) < StallLimit
        invariant clocks == i + timeout
        decreases StallLimit - timeout
      {
        timeout := timeout + 1;
        clocks := clocks + 1;
        if timeout >= StallLimit {
          timedOut := true;
          return;
        }
      }
      var ivalue, ivalid := PackLanes(tvc[i]);
      beats := beats + [Beat(ivalue, ivalid, i == |tvc| - 1)];
      clocks := clocks + 1;
      i := i + 1;
    }
  }
}

=== FILE: pcs_bench.dfy ===
/** The PCS testbench: its constants (gearbox pause value, idle default
  * word), the loopback that feeds the transmit gearbox output back into the
  * receiver, and the sequential matcher that scans a sample trace against a
  * golden table. */

module PcsBench {
  import opened Common
  import LanePacking
  import RxGearbox
  import GoldenVectors

  /** The gearbox sequence value at which the transmit gearbox pauses and
    * offers no data, as the PCS bench sets it for a bus width. */
  function GearboxPauseValue(width: int): (r: nat)
    ensures r < RxGearbox.Period
    ensures width == 32 <==> r == RxGearbox.Period - 2
    ensures width != 32 <==> r == RxGearbox.Period - 1
  {
    if width == 32 then 31 else 32
  }

  /** The MAC/PCS bench pauses at 32 whatever the width. */
  const BfmPauseValue: nat := 32

  /** The two benches expect the same pause phase exactly at the widths
    * other than 32: at width 32 the MAC/PCS bench still expects 32 where
    * the PCS bench expects 31. */
  lemma PauseValuesAgree(width: int)
    ensures BfmPauseValue == GearboxPauseValue(width) <==> width != 32
  {
  }

  // Python's int(text, base) on a string of digits.

  /** The value of one digit character in any base up to 36. */
  function DigitValue(c: char): (r: Option<nat>)
    ensures r.Some? ==> r.value < 36
    ensures r.Some? <==> ('0' <= c <= '9' || 'a' <= c <= 'z' || 'A' <= c <= 'Z')
  {
    if '0' <= c <= '9' then Some(c as nat - '0' as nat)
    else if 'a' <= c <= 'z' then Some(c as nat - 'a' as nat + 10)
    else if 'A' <= c <= 'Z' then Some(c as nat - 'A' as nat + 10)
    else None
  }

  predicate IsDigit(c: char, base: nat)
  {
    DigitValue(c).Some? && DigitValue(c).value < base
  }

  /** The value of a string of digits, most significant first (only read
    * once every character is known to be a digit). */
  function DigitsValue(s: string, base: nat): nat
  {
    if s == [] then 0
    else DigitsValue(s[..|s| - 1], base) * base + (if DigitValue(s[|s| - 1]).Some? then DigitValue(s[|s| - 1]).value else 0)
  }

  /** The digits after an optional `0x` (base 16) or `0b` (base 2) prefix. */
  function StripPrefix(s: string, base: nat): (r: string)
    ensures |r| <= |s| && r == s[|s| - |r|..]
  {
    if |s| >= 2 && s[0] == '0' && ((base == 16 && (s[1] == 'x' || s[1] == 'X')) || (base == 2 && (s[1] == 'b' || s[1] == 'B')))
    then s[2..] else s
  }

  /** int(text, base): the value of the digits, or the `ValueError` an
    * empty string or a stray character raises. */
  function ParseInt(s: string, base: nat): (r: Option<nat>)
    requires 2 <= base <= 36
    ensures r.Some? <==> StripPrefix(s, base) != [] && forall i :: 0 <= i < |StripPrefix(s, base)| ==> IsDigit(StripPrefix(s, base)[i], base)
  {
    var d := StripPrefix(s, base);
    if d != [] && forall i :: 0 <= i < |d| ==> IsDigit(d[i], base) then Some(DigitsValue(d, base)) else None
  }

  /** The text of the idle default data word: "07" once per byte lane. */
  function IdleDataText(nbytes: nat): (r: string)
    ensures |r| == 2 * nbytes
  {
    seq(2 * nbytes, i => if i % 2 == 0 then '0' else '7')
  }

  /** The text of the idle default control word: "1" once per byte lane. */
  function IdleCtlText(nbytes: nat): (r: string)
    ensures |r| == nbytes
  {
    seq(nbytes, _ => '1')
  }

  /** Every byte lane of the idle word holds the idle character 0x07. */
  function IdleBytes(nbytes: nat): (r: seq<Byte>)
    ensures |r| == nbytes
  {
    seq(nbytes, _ => 7)
  }

  lemma IdleDataDigits(nbytes: nat)
    ensures forall i :: 0 <= i < |IdleDataText(nbytes)| ==> IsDigit(IdleDataText(nbytes)[i], 16)
    ensures StripPrefix(IdleDataText(nbytes), 16) == IdleDataText(nbytes)
  {
    if nbytes > 0 {
      assert IdleDataText(nbytes)[1] == '7';
    }
  }

  lemma IdleCtlDigits(nbytes: nat)
    ensures forall i :: 0 <= i < |IdleCtlText(nbytes)| ==> IsDigit(IdleCtlText(nbytes)[i], 2)
    ensures StripPrefix(IdleCtlText(nbytes), 2) == IdleCtlText(nbytes)
  {
    if nbytes > 1 {
      assert IdleCtlText(nbytes)[1] == '1';
    }
  }

  lemma {:induction false} IdleDataDigitsValue(nbytes: nat)
    ensures DigitsValue(IdleDataText(nbytes), 16) == LanePacking.LittleEndian(IdleBytes(nbytes))
  {
    if nbytes > 0 {
      var m := nbytes - 1;
      var s := IdleDataText(nbytes);
      IdleDataDigitsValue(m);
      assert s[..|s| - 1][..|s| - 2] == IdleDataText(m);
      assert s[|s| - 1] == '7' && s[|s| - 2] == '0';
      assert DigitsValue(s, 16) == DigitsValue(IdleDataText(m), 16) * 256 + 7;
      assert IdleBytes(nbytes)[1..] == IdleBytes(m);
    }
  }

  lemma {:induction false} IdleCtlDigitsValue(nbytes: nat)
    ensures DigitsValue(IdleCtlText(nbytes), 2) == Pow2(nbytes) - 1
  {
    if nbytes > 0 {
      var m := nbytes - 1;
      IdleCtlDigitsValue(m);
      assert IdleCtlText(nbytes)[..m] == IdleCtlText(m);
    }
  }

  /** The idle default data word has the idle character in every byte lane
    * and nothing above; with no lanes the text is empty and int() fails. */
  lemma IdleDataWord(nbytes: nat)
    ensures ParseInt(IdleDataText(nbytes), 16) == if nbytes == 0 then None else Some(LanePacking.LittleEndian(IdleBytes(nbytes)))
    ensures nbytes > 0 ==> forall k: nat :: LanePacking.Lane(ParseInt(IdleDataText(nbytes), 16).value, k) == if k < nbytes then 7 else 0
  {
    IdleDataDigits(nbytes);
    IdleDataDigitsValue(nbytes);
    forall k: nat
      ensures LanePacking.Lane(LanePacking.LittleEndian(IdleBytes(nbytes)), k) == if k < nbytes then 7 else 0
    {
      LanePacking.LaneOfLittleEndian(IdleBytes(nbytes), k);
    }
  }

  /** The idle default control text parses to the mask of its byte lanes:
    * ctl = 2^nbytes - 1; with no lanes the text is empty and int() fails. */
  lemma IdleCtlWord(nbytes: nat)
    ensures ParseInt(IdleCtlText(nbytes), 2) == if nbytes == 0 then None else Some(Pow2(nbytes) - 1)
  {
    IdleCtlDigits(nbytes);
    IdleCtlDigitsValue(nbytes);
  }

  /** The idle default control word flags every byte lane as control and
    * nothing above. */
  lemma IdleCtlLanes(nbytes: nat)
    requires nbytes > 0
    ensures forall k: nat :: LanePacking.Bit(ParseInt(IdleCtlText(nbytes), 2).value, k) == if k < nbytes then 1 else 0
  {
    IdleCtlWord(nbytes);
    MaskLanes(nbytes, Pow2(nbytes) - 1);
  }

  /** The mask of the low `n` bits has exactly those bits set. */
  lemma MaskLanes(n: nat, mask: nat)
    requires mask + 1 == Pow2(n)
    ensures forall k: nat :: LanePacking.Bit(mask, k) == if k < n then 1 else 0
  {
    forall k: nat
      ensures LanePacking.Bit(mask, k) == if k < n then 1 else 0
    {
      LanePacking.MaskBits(n, k);
    }
  }

  /** The words the transmit loop drives: the table without its first,
    * idle, entry. */
  function TxStimulus<T>(table: seq<T>): (r: seq<T>)
    ensures |r| == Max(|table| - 1, 0)
    ensures forall i :: 0 <= i < |r| ==> r[i] == table[i + 1]
  {
    if table == [] then [] else table[1..]
  }

  lemma IdleBytesStep(n: nat)
    ensures LanePacking.LittleEndian(IdleBytes(n + 1)) == 7 + 256 * LanePacking.LittleEndian(IdleBytes(n))
  {
    assert IdleBytes(n + 1)[1..] == IdleBytes(n);
  }

  lemma IdleBytesEight()
    ensures LanePacking.LittleEndian(IdleBytes(8)) == 0x0707_0707_0707_0707
  {
    assert LanePacking.LittleEndian(IdleBytes(0)) == 0;
    IdleBytesStep(0);
    IdleBytesStep(1);
    IdleBytesStep(2);
    IdleBytesStep(3);
    IdleBytesStep(4);
    IdleBytesStep(5);
    IdleBytesStep(6);
    IdleBytesStep(7);
  }

  lemma FirstEntryValues()
    ensures GoldenVectors.PcsXgmii[0].data as nat == 0x0707_0707_0707_0707
    ensures GoldenVectors.PcsXgmii[0].ctl as nat == 0xFF
  {
  }

  lemma Pow2Eight()
    ensures Pow2(8) == 256
  {
    Pow2Byte(0);
  }

  /** The idle default word the bench drives before any stimulus is the
    * table's first entry. */
  lemma IdleDefaultIsFirstEntry()
    ensures ParseInt(IdleDataText(8), 16) == Some(GoldenVectors.PcsXgmii[0].data as nat)
    ensures ParseInt(IdleCtlText(8), 2) == Some(GoldenVectors.PcsXgmii[0].ctl as nat)
  {
    IdleDataWord(8);
    IdleCtlWord(8);
    IdleBytesEight();
    FirstEntryValues();
    Pow2Eight();
  }

  /** Skipping the first entry loses nothing: the stimulus is the rest of
    * the table after it. */
  lemma StimulusAfterIdle()
    ensures [GoldenVectors.PcsXgmii[0]] + TxStimulus(GoldenVectors.PcsXgmii) == GoldenVectors.PcsXgmii
  {
    GoldenVectors.PcsTableIsMacTable();
  }

  // The loopback: the transmit gearbox output captured each clock and
  // queued for the receiver.

  /** What the transmit side shows on one clock. */
  datatype TxSample = TxSample(data: nat, header: nat, sequence: nat)

  /** One queued entry: data, header and the two valid flags. */
  datatype LoopbackEntry = LoopbackEntry(data: nat, header: nat, dataValid: bool, headerValid: bool)

  /** The gearbox sequence seen on the clock before sample `i`; before the
    * first sample the loopback assumes 0. */
  function PrevSequence(samples: seq<TxSample>, i: nat): nat
    requires i < |samples|
  {
    if i == 0 then 0 else samples[i - 1].sequence
  }

  /** The queue the capture side builds: `delay` empty entries, then one
    * entry per sample, data valid unless the gearbox pauses and header
    * valid only on a clock where the sequence moved on. So a valid header
    * always comes with valid data, and a sequence value held over two
    * clocks never flags a header on the second. */
  method CaptureOutputs(samples: seq<TxSample>, pause: nat, delay: nat) returns (q: seq<LoopbackEntry>)
    ensures |q| == delay + |samples|
    ensures forall i :: 0 <= i < delay ==> q[i] == LoopbackEntry(0, 0, false, false)
    ensures forall i :: 0 <= i < |samples| ==>
      q[delay + i].data == samples[i].data && q[delay + i].header == samples[i].header
    ensures forall i :: 0 <= i < |samples| ==> (q[delay + i].dataValid <==> samples[i].sequence != pause)
    ensures forall i :: 0 <= i < |samples| ==>
      (q[delay + i].headerValid <==> samples[i].sequence != pause && samples[i].sequence != PrevSequence(samples, i))
    ensures forall j :: 0 <= j < |q| ==> (q[j].headerValid ==> q[j].dataValid)
    ensures forall i :: 0 < i < |samples| && samples[i].sequence == PrevSequence(samples, i) ==> !q[delay + i].headerValid
  {
    q := [];
    var d := 0;
    while d < delay
      invariant d <= delay && |q| == d
      invariant forall i :: 0 <= i < d ==> q[i] == LoopbackEntry(0, 0, false, false)
    {
      q := q + [LoopbackEntry(0, 0, false, false)];
      d := d + 1;
    }
    var prev := 0;
    var n := 0;
    while n < |samples|
      invariant n <= |samples| && |q| == delay + n
      invariant n > 0 ==> prev == samples[n - 1].sequence
      invariant n == 0 ==> prev == 0
      invariant forall i :: 0 <= i < delay ==> q[i] == LoopbackEntry(0, 0, false, false)
      invariant forall i :: 0 <= i < n ==>
        q[delay + i] == LoopbackEntry(samples[i].data, samples[i].header, samples[i].sequence != pause,
                                      samples[i].sequence != PrevSequence(samples, i) && samples[i].sequence != pause)
    {
      var x := samples[n];
      var dataValid := x.sequence != pause;
      var headerValid := x.sequence != prev && dataValid;
      prev := x.sequence;
      q := q + [LoopbackEntry(x.data, x.header, dataValid, headerValid)];
      n := n + 1;
    }
    HeaderFlags(samples, pause, delay, q);
  }

  /** In a queue built by the capture rules, a valid header always comes
    * with valid data, and a sequence value held over two clocks never flags
    * a header on the second. */
  lemma HeaderFlags(samples: seq<TxSample>, pause: nat, delay: nat, q: seq<LoopbackEntry>)
    requires |q| == delay + |samples|
    requires forall i :: 0 <= i < delay ==> q[i] == LoopbackEntry(0, 0, false, false)
    requires forall i :: 0 <= i < |samples| ==> (q[delay + i].dataValid <==> samples[i].sequence != pause)
    requires forall i :: 0 <= i < |samples| ==>
      (q[delay + i].headerValid <==> samples[i].sequence != pause && samples[i].sequence != PrevSequence(samples, i))
    ensures forall j :: 0 <= j < |q| ==> (q[j].headerValid ==> q[j].dataValid)
    ensures forall i :: 0 < i < |samples| && samples[i].sequence == PrevSequence(samples, i) ==> !q[delay + i].headerValid
  {
    forall j | 0 <= j < |q|
      ensures q[j].headerValid ==> q[j].dataValid
    {
      if j < delay {
        assert q[j] == LoopbackEntry(0, 0, false, false);
      } else {
        var i := j - delay;
        assert q[delay + i] == q[j];
        assert q[delay + i].headerValid ==> samples[i].sequence != pause;
      }
    }
  }

  // The sequential golden-frame matchers.

  /** A monitored signal on one clock: whether it was valid and its value. */
  datatype Sample<T> = Sample(valid: bool, value: T)

  datatype MonitorResult = AllFound | WrongFrame(clock: nat) | TimedOut(clock: nat) | TraceEnded

  /** Clocks the matchers wait for the next frame before failing. */
  const Timeout: nat := 10

  /** Consecutive clocks of `f` lie at most `Timeout` apart. */
  ghost predicate Gaps(f: seq<nat>)
    decreases |f|
  {
    |f| <= 1 || (f[1] <= f[0] + Timeout && Gaps(f[1..]))
  }

  lemma {:induction false} GapsAt(f: seq<nat>, k: nat)
    requires Gaps(f) && k + 1 < |f|
    ensures f[k + 1] <= f[k] + Timeout
    decreases k
  {
    if k > 0 {
      GapsAt(f[1..], k - 1);
    }
  }

  lemma {:induction false} GapsAppend(f: seq<nat>, c: nat)
    requires Gaps(f) && (|f| > 0 ==> c <= f[|f| - 1] + Timeout)
    ensures Gaps(f + [c])
    decreases |f|
  {
    if |f| > 1 {
      assert (f + [c])[1..] == f[1..] + [c];
      GapsAppend(f[1..], c);
    }
  }

  /** The clock of the find after find `k`. */
  function NextFind(f: seq<nat>, k: nat): nat
    requires k + 1 < |f|
  {
    f[k + 1]
  }

  /** A trace the matcher accepts, with the clocks `f` at which it finds
    * table entries `start`, `start+1`, ... to the end: the first within
    * the first ten clocks, each next one at most ten clocks after the
    * previous, no valid sample between the first and the last find that
    * is not a find, and before the first find no valid sample equal to
    * the first expected entry. */
  ghost predicate Schedule<T>(trace: seq<Sample<T>>, table: seq<T>, start: nat, f: seq<nat>)
  {
    start < |table| && |f| == |table| - start
    && (forall k :: 0 <= k < |f| ==> f[k] < |trace| && trace[f[k]].valid && trace[f[k]].value == table[start + k])
    && (forall i, j :: 0 <= i < j < |f| ==> f[i] < f[j])
    && f[0] < Timeout && Gaps(f)
    && (forall c :: 0 <= c < f[0] && c < |trace| && trace[c].valid ==> trace[c].value != table[start])
    && (forall k, c {:trigger NextFind(f, k), trace[c]} :: 0 <= k < |f| - 1 && f[k] < c < NextFind(f, k) && c < |trace| ==> !trace[c].valid)
  }

  /** Clocks since the last find (or since the start), as the matcher's
    * timeout counter holds them at the top of its loop. */
  function Waited(found: seq<nat>, c: nat): int
  {
    if |found| == 0 then c else c - 1 - found[|found| - 1]
  }

  /** What the matcher has seen before clock `c`: finds of entries
    * `start`, `start+1`, ... at increasing clocks no more than ten apart,
    * the first within ten; no sample equal to the first entry before the
    * first find; no valid sample after it that is not a find. */
  ghost predicate Scanned<T>(trace: seq<Sample<T>>, table: seq<T>, start: nat, found: seq<nat>, c: nat)
  {
    start + |found| < |table| && c <= |trace|
    && (forall k :: 0 <= k < |found| ==> found[k] < c && trace[found[k]].valid && trace[found[k]].value == table[start + k])
    && (forall i, j :: 0 <= i < j < |found| ==> found[i] < found[j])
    && (|found| > 0 ==> found[0] < Timeout) && Gaps(found)
    && (forall c' :: 0 <= c' < c && (|found| == 0 || c' < found[0]) && trace[c'].valid ==> trace[c'].value != table[start])
    && (forall k, c' {:trigger NextFind(found, k), trace[c']} :: 0 <= k < |found| - 1 && found[k] < c' < NextFind(found, k) ==> !trace[c'].valid)
    && (|found| > 0 ==> forall c' :: found[|found| - 1] < c' < c ==> !trace[c'].valid)
  }

  /** Every accepting schedule extends the finds so far and finds the next
    * entry no earlier than clock `c`. */
  ghost predicate Agrees<T>(trace: seq<Sample<T>>, table: seq<T>, start: nat, found: seq<nat>, c: nat)
  {
    forall f :: Schedule(trace, table, start, f) ==> |found| < |f| && found == f[..|found|] && c <= f[|found|]
  }

  /** What an accepting schedule that agrees with the finds says about its
    * next find and about clock `c`. */
  lemma ScheduleFacts<T>(trace: seq<Sample<T>>, table: seq<T>, start: nat, found: seq<nat>, c: nat)
    requires Agrees(trace, table, start, found, c) && c < |trace|
    requires 0 < |found| ==> found[|found| - 1] < c
    ensures forall f :: Schedule(trace, table, start, f) ==>
      f[|found|] < |trace| && trace[f[|found|]].valid && trace[f[|found|]].value == table[start + |found|]
      && (|found| == 0 ==> f[0] < Timeout && (c < f[0] && trace[c].valid ==> trace[c].value != table[start]))
      && (|found| > 0 ==> f[|found|] <= found[|found| - 1] + Timeout && (c < f[|found|] ==> !trace[c].valid))
      && (|found| + 1 < |f| ==> f[|found|] < f[|found| + 1])
  {
    var k := |found|;
    forall f | Schedule(trace, table, start, f)
      ensures f[k] < |trace| && trace[f[k]].valid && trace[f[k]].value == table[start + k]
      ensures k == 0 ==> f[0] < Timeout && (c < f[0] && trace[c].valid ==> trace[c].value != table[start])
      ensures k > 0 ==> f[k] <= found[k - 1] + Timeout && (c < f[k] ==> !trace[c].valid)
      ensures k + 1 < |f| ==> f[k] < f[k + 1]
    {
      if k > 0 {
        assert f[k - 1] == found[k - 1];
        GapsAt(f, k - 1);
        assert NextFind(f, k - 1) == f[k];
      }
    }
  }

  /** A clock with nothing to find keeps every accepting schedule in step. */
  lemma AgreesSkip<T>(trace: seq<Sample<T>>, table: seq<T>, start: nat, found: seq<nat>, c: nat)
    requires Agrees(trace, table, start, found, c) && c < |trace| && start + |found| < |table|
    requires 0 < |found| ==> found[|found| - 1] < c
    requires !(trace[c].valid && trace[c].value == table[start + |found|])
    requires |found| > 0 ==> !trace[c].valid
    ensures Agrees(trace, table, start, found, c + 1)
  {
    ScheduleFacts(trace, table, start, found, c);
  }

  /** A sample equal to the next entry is where every accepting schedule
    * finds that entry; with entries left, the schedules stay in step, and
    * with none left, the finds are the only accepting schedule. */
  lemma AgreesFind<T>(trace: seq<Sample<T>>, table: seq<T>, start: nat, found: seq<nat>, c: nat)
    requires Agrees(trace, table, start, found, c) && c < |trace| && start + |found| < |table|
    requires 0 < |found| ==> found[|found| - 1] < c
    requires trace[c].valid && trace[c].value == table[start + |found|]
    ensures start + |found| + 1 < |table| ==> Agrees(trace, table, start, found + [c], c + 1)
    ensures start + |found| + 1 == |table| ==> forall f :: Schedule(trace, table, start, f) ==> f == found + [c]
  {
    ScheduleFacts(trace, table, start, found, c);
    var k := |found|;
    forall f | Schedule(trace, table, start, f)
      ensures f[..k + 1] == found + [c]
      ensures start + k + 1 == |table| ==> f == found + [c]
    {
      assert f[k] == c;
      assert f[..k + 1] == f[..k] + [f[k]];
      assert start + k + 1 == |table| ==> f[..k + 1] == f;
    }
  }

  /** The finds extended by a find at clock `c` still find the entries
    * in order. */
  lemma FindsExtendEntries<T>(trace: seq<Sample<T>>, table: seq<T>, start: nat, found: seq<nat>, c: nat)
    requires Scanned(trace, table, start, found, c) && c < |trace|
    requires trace[c].valid && trace[c].value == table[start + |found|]
    ensures forall k :: 0 <= k < |found| + 1 ==>
      (found + [c])[k] <= c && trace[(found + [c])[k]].valid && trace[(found + [c])[k]].value == table[start + k]
  {
    var f' := found + [c];
    forall k | 0 <= k < |f'|
      ensures f'[k] <= c && trace[f'[k]].valid && trace[f'[k]].value == table[start + k]
    {
      if k < |found| {
        assert f'[k] == found[k];
      }
    }
  }

  /** The finds extended by a find at clock `c`, within the wait, are
    * increasing and at most ten clocks apart. */
  lemma FindsExtendOrder<T>(trace: seq<Sample<T>>, table: seq<T>, start: nat, found: seq<nat>, c: nat)
    requires Scanned(trace, table, start, found, c)
    requires Waited(found, c) + 1 <= Timeout
    ensures forall i, j :: 0 <= i < j < |found| + 1 ==> (found + [c])[i] < (found + [c])[j]
    ensures Gaps(found + [c]) && (found + [c])[0] < Timeout
  {
    var f' := found + [c];
    GapsAppend(found, c);
    forall i, j | 0 <= i < j < |f'|
      ensures f'[i] < f'[j]
    {
      assert f'[i] == found[i];
      if j < |found| {
        assert f'[j] == found[j];
      }
    }
    if |found| > 0 {
      assert f'[0] == found[0];
    }
  }

  /** The finds extended by a find at clock `c` leave no valid sample
    * between two consecutive finds. */
  lemma FindsExtendQuiet<T>(trace: seq<Sample<T>>, table: seq<T>, start: nat, found: seq<nat>, c: nat)
    requires Scanned(trace, table, start, found, c)
    ensures forall k, c' {:trigger NextFind(found + [c], k), trace[c']} ::
      0 <= k < |found| && (found + [c])[k] < c' < NextFind(found + [c], k) ==> !trace[c'].valid
  {
    var f' := found + [c];
    forall k, c' | 0 <= k < |found| && f'[k] < c' < NextFind(f', k)
      ensures !trace[c'].valid
    {
      assert f'[k] == found[k];
      if k + 1 < |found| {
        assert NextFind(f', k) == NextFind(found, k);
      }
    }
  }

  /** Finding the next entry at clock `c`, within the wait, with entries
    * left to find. */
  lemma ScannedFind<T>(trace: seq<Sample<T>>, table: seq<T>, start: nat, found: seq<nat>, c: nat)
    requires Scanned(trace, table, start, found, c) && c < |trace|
    requires trace[c].valid && trace[c].value == table[start + |found|]
    requires Waited(found, c) + 1 <= Timeout && start + |found| + 1 < |table|
    ensures Scanned(trace, table, start, found + [c], c + 1)
  {
    FindsExtendEntries(trace, table, start, found, c);
    FindsExtendOrder(trace, table, start, found, c);
    FindsExtendQuiet(trace, table, start, found, c);
  }

  /** Finding the last entry at clock `c`, within the wait: the finds form
    * a schedule. */
  lemma FindsComplete<T>(trace: seq<Sample<T>>, table: seq<T>, start: nat, found: seq<nat>, c: nat)
    requires Scanned(trace, table, start, found, c) && c < |trace|
    requires trace[c].valid && trace[c].value == table[start + |found|]
    requires Waited(found, c) + 1 <= Timeout && start + |found| + 1 == |table|
    ensures Schedule(trace, table, start, found + [c])
  {
    FindsExtendEntries(trace, table, start, found, c);
    FindsExtendOrder(trace, table, start, found, c);
    FindsExtendQuiet(trace, table, start, found, c);
    var f' := found + [c];
    assert f'[|f'| - 1] == c;
    if |found| > 0 {
      assert f'[0] == found[0];
    }
  }

  /** A clock that nothing rejects keeps the scan going. */
  lemma ScannedSkip<T>(trace: seq<Sample<T>>, table: seq<T>, start: nat, found: seq<nat>, c: nat)
    requires Scanned(trace, table, start, found, c) && c < |trace|
    requires !(trace[c].valid && trace[c].value == table[start + |found|])
    requires |found| > 0 ==> !trace[c].valid
    ensures Scanned(trace, table, start, found, c + 1)
  {
  }

  /** What the matcher promises when it stops with `res` after finding
    * entries at the clocks in `found`. */
  ghost predicate Outcome<T>(trace: seq<Sample<T>>, table: seq<T>, start: nat, res: MonitorResult, found: seq<nat>)
  {
    |found| <= |table| - start
    && (forall k :: 0 <= k < |found| ==> found[k] < |trace| && trace[found[k]].valid && trace[found[k]].value == table[start + k])
    && (res.AllFound? ==> Schedule(trace, table, start, found))
    && (forall f :: Schedule(trace, table, start, f) ==> res.AllFound? && found == f)
    && (res.WrongFrame? ==>
         0 < |found| < |table| - start && res.clock < |trace| && trace[res.clock].valid
         && trace[res.clock].value != table[start + |found|])
    && (res.TimedOut? ==>
         |found| < |table| - start && res.clock == if |found| == 0 then Timeout - 1 else found[|found| - 1] + Timeout)
    && (res.WrongFrame? || res.TimedOut? ==> Scanned(trace, table, start, found, res.clock))
    && (res.TraceEnded? ==> Scanned(trace, table, start, found, |trace|))
  }

  /** The clock a failed match reports is the first failure: after the last
    * find no valid sample comes before it, and before the first find no
    * earlier sample is the first entry. */
  lemma StopClockIsFirst<T>(trace: seq<Sample<T>>, table: seq<T>, start: nat, res: MonitorResult, found: seq<nat>)
    requires Outcome(trace, table, start, res, found) && (res.WrongFrame? || res.TimedOut?)
    ensures |found| > 0 ==> forall c :: found[|found| - 1] < c < res.clock ==> !trace[c].valid
    ensures forall c :: 0 <= c < res.clock && (|found| == 0 || c < found[0]) && trace[c].valid ==>
      trace[c].value != table[start]
  {
  }

  /** A valid sample other than the next entry, after the first find,
    * ends the match: no schedule accepts the trace. */
  lemma StopOnStray<T>(trace: seq<Sample<T>>, table: seq<T>, start: nat, found: seq<nat>, c: nat)
    requires c < |trace| && Scanned(trace, table, start, found, c) && Agrees(trace, table, start, found, c)
    requires |found| > 0 && trace[c].valid && trace[c].value != table[start + |found|]
    ensures Outcome(trace, table, start, WrongFrame(c), found)
  {
    ScheduleFacts(trace, table, start, found, c);
  }

  /** The last entry found within the wait completes the match: the finds
    * are the one schedule that accepts the trace. */
  lemma StopOnLast<T>(trace: seq<Sample<T>>, table: seq<T>, start: nat, found: seq<nat>, c: nat)
    requires c < |trace| && Scanned(trace, table, start, found, c) && Agrees(trace, table, start, found, c)
    requires trace[c].valid && trace[c].value == table[start + |found|]
    requires Waited(found, c) + 1 <= Timeout && start + |found| + 1 == |table|
    ensures Outcome(trace, table, start, AllFound, found + [c])
  {
    AgreesFind(trace, table, start, found, c);
    FindsComplete(trace, table, start, found, c);
  }

  /** Ten clocks without a find end the match: no schedule accepts the
    * trace. */
  lemma StopOnTimeout<T>(trace: seq<Sample<T>>, table: seq<T>, start: nat, found: seq<nat>, c: nat)
    requires c < |trace| && Scanned(trace, table, start, found, c) && Agrees(trace, table, start, found, c)
    requires !(trace[c].valid && trace[c].value == table[start + |found|])
    requires |found| > 0 ==> !trace[c].valid
    requires Waited(found, c) + 1 == Timeout
    ensures Outcome(trace, table, start, TimedOut(c), found)
  {
    ScheduleFacts(trace, table, start, found, c);
  }

  /** One clock of the matcher: count the clock, look at the sample, and
    * either stop with a result or carry on with the updated finds and
    * timeout counter. */
  method MatchClock<T(==)>(trace: seq<Sample<T>>, table: seq<T>, start: nat, found: seq<nat>, c: nat, timeout: nat)
    returns (stop: Option<MonitorResult>, found': seq<nat>, timeout': nat)
    requires c < |trace| && Scanned(trace, table, start, found, c) && Agrees(trace, table, start, found, c)
    requires timeout == Waited(found, c) && timeout < Timeout
    ensures stop.Some? ==> Outcome(trace, table, start, stop.value, found')
    ensures stop.None? ==> Scanned(trace, table, start, found', c + 1) && Agrees(trace, table, start, found', c + 1)
    ensures stop.None? ==> timeout' == Waited(found', c + 1) && timeout' < Timeout
  {
    var fi := start + |found|;
    if trace[c].valid {
      if fi != start && trace[c].value != table[fi] {
        StopOnStray(trace, table, start, found, c);
        return Some(WrongFrame(c)), found, timeout + 1;
      }
      if trace[c].value == table[fi] {
        if fi + 1 == |table| {
          StopOnLast(trace, table, start, found, c);
          return Some(AllFound), found + [c], timeout + 1;
        }
        AgreesFind(trace, table, start, found, c);
        ScannedFind(trace, table, start, found, c);
        return None, found + [c], 0;
      }
    }
    if timeout + 1 >= Timeout {
      StopOnTimeout(trace, table, start, found, c);
      return Some(TimedOut(c)), found, timeout + 1;
    }
    AgreesSkip(trace, table, start, found, c);
    ScannedSkip(trace, table, start, found, c);
    return None, found, timeout + 1;
  }

  /** Scan `trace` clock by clock for the table entries from `start` on:
    * skip non-matching samples until the first find, then insist that
    * every valid sample is the next entry; ten clocks without a find fail. */
  method MonitorFrames<T(==)>(trace: seq<Sample<T>>, table: seq<T>, start: nat) returns (res: MonitorResult, found: seq<nat>)
    requires start < |table|
    ensures Outcome(trace, table, start, res, found)
  {
    found := [];
    var timeout := 0;
    var c := 0;
    while c < |trace|
      invariant Scanned(trace, table, start, found, c) && Agrees(trace, table, start, found, c)
      invariant timeout == Waited(found, c) && timeout < Timeout
    {
      var stop;
      stop, found, timeout := MatchClock(trace, table, start, found, c, timeout);
      if stop.Some? {
        return stop.value, found;
      }
      c := c + 1;
    }
    AgreesEnd(trace, table, start, found, c);
    return TraceEnded, found;
  }

  /** With the trace used up and entries left, no schedule agrees. */
  lemma AgreesEnd<T>(trace: seq<Sample<T>>, table: seq<T>, start: nat, found: seq<nat>, c: nat)
    requires Agrees(trace, table, start, found, c) && c == |trace|
    ensures forall f :: Schedule(trace, table, start, f) ==> |trace| <= f[|found|] < |trace|
  {
  }

  /** The frame the receive matcher waits for first. */
  function RxStartFrame(width: int): (r: nat)
    ensures width == 32 || width == 64 ==> r * width == 64
  {
    if width == 64 then 1 else 2
  }

  /** On either bus the receive matcher's first frame is the first word
    * that is not all idle: it carries the start character in lane 0, and
    * every word before it is idle in every lane. */
  lemma RxStartIsFirstNonIdle(width: int)
    requires width == 32 || width == 64
    ensures GoldenVectors.BusLanes(width / 8) && GoldenVectors.XgmiiTable(width).Some?
    ensures RxStartFrame(width) < |GoldenVectors.XgmiiTable(width).value|
    ensures GoldenVectors.Lanes(GoldenVectors.XgmiiTable(width).value[RxStartFrame(width)], width / 8)[0]
      == GoldenVectors.Control(GoldenVectors.Start)
    ensures forall i :: 0 <= i < RxStartFrame(width) ==>
      GoldenVectors.Lanes(GoldenVectors.XgmiiTable(width).value[i], width / 8) == GoldenVectors.IdleLanes(width / 8)
  {
    GoldenVectors.PcsTableIsMacTable();
    GoldenVectors.IdleRows();
    GoldenVectors.StartRow();
    var m := GoldenVectors.MacXgmii64;
    if width == 32 {
      var t := GoldenVectors.MacXgmii32;
      GoldenVectors.SplitRow0();
      GoldenVectors.SplitRow1();
      Halves(m[0], t[0], t[1], GoldenVectors.IdleLanes(8));
      Halves(m[1], t[2], t[3], GoldenVectors.StartLanes);
      assert GoldenVectors.IdleLanes(8)[..4] == GoldenVectors.IdleLanes(4);
      assert GoldenVectors.IdleLanes(8)[4..] == GoldenVectors.IdleLanes(4);
    }
  }

  /** The lanes of the halves of a word are the two halves of its lanes. */
  lemma Halves(w: GoldenVectors.XgmiiWord, lo: GoldenVectors.XgmiiWord, hi: GoldenVectors.XgmiiWord, ls: seq<GoldenVectors.XgmiiLane>)
    requires GoldenVectors.Split(w) == [lo, hi] && GoldenVectors.Lanes(w, 8) == ls
    ensures GoldenVectors.Lanes(lo, 4) == ls[..4] && GoldenVectors.Lanes(hi, 4) == ls[4..]
  {
    GoldenVectors.SplitLanes(w);
  }

  /** `monitor_tx_scrambled_data`: the scrambled table for the bus width,
    * matched from its first entry; there is no table, and no match, for a
    * width without one. */
  method MonitorTxScrambled(trace: seq<Sample<GoldenVectors.SyncBlock>>, width: int)
    returns (res: Option<MonitorResult>, found: seq<nat>)
    ensures res.Some? <==> GoldenVectors.ScrambledTable(width).Some?
    ensures res.Some? ==> Outcome(trace, GoldenVectors.ScrambledTable(width).value, 0, res.value, found)
  {
    var table := GoldenVectors.ScrambledTable(width);
    if table.None? {
      return None, [];
    }
    var r;
    r, found := MonitorFrames(trace, table.value, 0);
    res := Some(r);
  }

  /** `monitor_rx_data`: the XGMII table for the bus width, matched from
    * the first non-idle word. */
  method MonitorRxData(trace: seq<Sample<GoldenVectors.XgmiiWord>>, width: int)
    returns (res: Option<MonitorResult>, found: seq<nat>)
    ensures res.Some? <==> GoldenVectors.XgmiiTable(width).Some?
    ensures res.Some? ==> Outcome(trace, GoldenVectors.XgmiiTable(width).value, RxStartFrame(width), res.value, found)
  {
    var table := GoldenVectors.XgmiiTable(width);
    if table.None? {
      return None, [];
    }
    RxStartIsFirstNonIdle(width);
    var r;
    r, found := MonitorFrames(trace, table.value, RxStartFrame(width));
    res := Some(r);
  }
}

=== FILE: scoreboard.dfy ===
/** The MAC/PCS scoreboard: received frames are paired with transmitted
  * frames in FIFO order and each pair must carry equal data and a set CRC
  * flag; plus the bounds of the randomly generated packets. */
module Scoreboard {
  import opened Common
  import AxiStream

  // Python slicing with step 1.

  /** A slice bound as Python normalises it for a list of length `n`:
    * negative bounds count from the end, and every bound is clamped into
    * 0..n. */
  function SliceBound(i: int, n: nat): (r: nat)
    ensures r <= n
    ensures 0 <= i <= n ==> r == i
    ensures -(n as int) <= i < 0 ==> r == n + i
    ensures (i > n ==> r == n) && (i < -(n as int) ==> r == 0)
  {
    if i < 0 then (if i + n < 0 then 0 else i + n)
    else if i > n then n
    else i
  }

  /** `xs[lo:hi]`: empty when the normalised bounds cross. */
  function Slice<T>(xs: seq<T>, lo: int, hi: int): seq<T>
  {
    var a := SliceBound(lo, |xs|);
    var b := SliceBound(hi, |xs|);
    if a <= b then xs[a..b] else []
  }

  /** Frames below this length are padded by the MAC before transmission. */
  const MinUnpadded: nat := 64

  /** The length of the frame check sequence the receiver leaves on the
    * data. */
  const FcsLength: nat := 4

  /** `data_eq`: a short transmitted frame must start the received data and
    * be followed only by zero padding up to the FCS; a long one must be
    * the received data without its FCS. */
  function DataEq(tx: seq<Byte>, rx: seq<Byte>): (r: bool)
    ensures r ==> |tx| <= |rx| && rx[..|tx|] == tx
  {
    if |tx| < MinUnpadded then
      var pad := Slice(rx, |tx|, -(FcsLength as int));
      Slice(rx, 0, |tx|) == tx && forall k :: 0 <= k < |pad| ==> pad[k] == 0
    else
      Slice(rx, 0, -(FcsLength as int)) == tx
  }

  /** The padding slice of a short frame: the received bytes from the end
    * of the transmitted data up to the FCS, if any. */
  lemma PaddingSlice(tx: seq<Byte>, rx: seq<Byte>)
    requires |tx| <= |rx|
    ensures Slice(rx, |tx|, -(FcsLength as int)) == if |tx| + FcsLength <= |rx| then rx[|tx|..|rx| - FcsLength] else []
  {
  }

  /** A frame shorter than 64 bytes compares equal exactly when the
    * received data begins with it and every byte after it, up to the last
    * four, is zero. */
  lemma DataEqShort(tx: seq<Byte>, rx: seq<Byte>)
    requires |tx| < MinUnpadded
    ensures DataEq(tx, rx) <==>
      |tx| <= |rx| && rx[..|tx|] == tx && forall i :: |tx| <= i < |rx| - FcsLength ==> rx[i] == 0
  {
    if |tx| <= |rx| {
      assert Slice(rx, 0, |tx|) == rx[..|tx|];
      var pad := Slice(rx, |tx|, -(FcsLength as int));
      PaddingSlice(tx, rx);
      assert forall k :: 0 <= k < |pad| ==> pad[k] == rx[|tx| + k];
      assert |pad| == if |tx| + FcsLength <= |rx| then |rx| - FcsLength - |tx| else 0;
    } else {
      assert |Slice(rx, 0, |tx|)| < |tx|;
    }
  }

  /** A frame of 64 bytes or more compares equal exactly when the received
    * data is that frame followed by four more bytes. */
  lemma DataEqLong(tx: seq<Byte>, rx: seq<Byte>)
    requires |tx| >= MinUnpadded
    ensures DataEq(tx, rx) <==> |rx| == |tx| + FcsLength && rx[..|tx|] == tx
  {
    if |rx| >= FcsLength {
      assert Slice(rx, 0, -(FcsLength as int)) == rx[..|rx| - FcsLength];
    } else {
      assert Slice(rx, 0, -(FcsLength as int)) == [];
    }
  }

  /** `rx_crc_valid`: a per-byte `tuser` list is valid when its last entry
    * is 1; a scalar or an absent `tuser` is not iterable and counts as
    * invalid; an empty list raises the uncaught `IndexError` (None). */
  function RxCrcValid(tuser: AxiStream.Sideband): (r: Option<bool>)
    ensures r.None? <==> tuser == AxiStream.PerByte([])
    ensures r == Some(true) <==> tuser.PerByte? && |tuser.values| > 0 && tuser.values[|tuser.values| - 1] == 1
  {
    match tuser
    case PerByte(vs) => if |vs| == 0 then None else Some(vs[|vs| - 1] == 1)
    case _ => Some(false)
  }

  /** On a `tuser` list the bus functional model has collapsed the check
    * never raises, and passes only when the list kept two different values
    * and ends in 1: a frame whose every entry is 1 collapses to a scalar
    * and fails. */
  lemma CrcValidAfterCollapse(xs: seq<int>)
    ensures RxCrcValid(AxiStream.Collapse(xs)).Some?
    ensures RxCrcValid(AxiStream.Collapse(xs)) == Some(true) <==>
      |xs| > 0 && xs[|xs| - 1] == 1 && exists i :: 0 <= i < |xs| && xs[i] != xs[0]
  {
    if |xs| > 0 && !(forall i :: 0 <= i < |xs| ==> xs[i] == xs[0]) {
      assert AxiStream.Collapse(xs) == AxiStream.PerByte(xs);
    }
  }

  /** What the scoreboard reads of a frame. */
  datatype Frame = Frame(tdata: seq<Byte>, tuser: AxiStream.Sideband)

  /** A received frame passes against its transmitted frame when the data
    * compare equal and the CRC flag is set. */
  predicate PairPasses(rx: Frame, tx: Frame)
  {
    DataEq(tx.tdata, rx.tdata) && RxCrcValid(rx.tuser) == Some(true)
  }

  /** How `check_phase` ends: all pairs passed; the received frame at
    * `index` had no transmitted frame; the pair at `index` failed; the CRC
    * check of the frame at `index` raised; or nothing was received. */
  datatype Verdict = Pass | MissingTxFrame(index: nat) | FrameFailed(index: nat) | CrcCheckRaised(index: nat) | NoFrames

  /** `check_phase`: drain the received frames, pairing each with the next
    * transmitted frame, and stop at the first failure. */
  method CheckPhase(rx: seq<Frame>, tx: seq<Frame>) returns (v: Verdict)
    ensures v == Pass <==> 0 < |rx| <= |tx| && forall i :: 0 <= i < |rx| ==> PairPasses(rx[i], tx[i])
    ensures v == NoFrames <==> |rx| == 0
    ensures v.MissingTxFrame? || v.FrameFailed? || v.CrcCheckRaised? ==>
      v.index < |rx| && v.index <= |tx| && forall i :: 0 <= i < v.index ==> PairPasses(rx[i], tx[i])
    ensures v.MissingTxFrame? <==> |tx| < |rx| && forall i :: 0 <= i < |tx| ==> PairPasses(rx[i], tx[i])
    ensures v.MissingTxFrame? ==> v.index == |tx|
    ensures v.FrameFailed? ==> v.index < |tx| && RxCrcValid(rx[v.index].tuser).Some? && !PairPasses(rx[v.index], tx[v.index])
    ensures v.CrcCheckRaised? ==> v.index < |tx| && RxCrcValid(rx[v.index].tuser).None?
  {
    var i := 0;
    while i < |rx|
      invariant 0 <= i <= |rx| && i <= |tx|
      invariant forall j :: 0 <= j < i ==> PairPasses(rx[j], tx[j])
    {
      if i >= |tx| {
        return MissingTxFrame(i);
      }
      var valid := RxCrcValid(rx[i].tuser);
      if valid.None? {
        return CrcCheckRaised(i);
      }
      if !(DataEq(tx[i].tdata, rx[i].tdata) && valid.value) {
        return FrameFailed(i);
      }
      i := i + 1;
    }
    if i == 0 {
      return NoFrames;
    }
    return Pass;
  }

  // Random packet generation, the draws of the generator being parameters.

  /** numpy's `randint(low, high)` for a given draw: a value in the
    * half-open range low..high-1. */
  function Randint(low: int, high: int, draw: nat): (r: int)
    requires low < high
    ensures low <= r < high
  {
    low + draw % (high - low)
  }

  /** Every value of the half-open range comes from some draw. */
  lemma RandintCovers(low: int, high: int, v: int)
    requires low <= v < high
    ensures exists d: nat :: Randint(low, high, d) == v
  {
    var d: nat := v - low;
    assert Randint(low, high, d) == v;
  }

  /** `EthTxSeqRandom` and `EthTxSeqItem`: a size in 16..255, then that many
    * bytes in 0..254. */
  function GeneratePacket(sizeDraw: nat, byteDraw: nat -> nat): (p: seq<Byte>)
    ensures 16 <= |p| <= 255
    ensures forall i :: 0 <= i < |p| ==> p[i] <= 254
  {
    var size := Randint(16, 256, sizeDraw);
    var p := seq(size, i requires 0 <= i < size => PacketByte(byteDraw(i)));
    assert forall i :: 0 <= i < size ==> p[i] == PacketByte(byteDraw(i));
    p
  }

  /** One packet byte: `randint(0, 255)`, an 8-bit value other than 255. */
  function PacketByte(draw: nat): (b: Byte)
    ensures b <= 254
  {
    Randint(0, 255, draw)
  }

  /** Exactly the sizes 16..255 can occur, and no byte is ever 255. */
  lemma PacketBounds(sizeDraw: nat, byteDraw: nat -> nat, size: int)
    ensures 16 <= size <= 255 <==> exists d: nat :: |GeneratePacket(d, byteDraw)| == size
    ensures 255 !in GeneratePacket(sizeDraw, byteDraw)
  {
    if 16 <= size <= 255 {
      RandintCovers(16, 256, size);
      var d: nat :| Randint(16, 256, d) == size;
      assert |GeneratePacket(d, byteDraw)| == size;
    }
  }
}

=== FILE: vectors.dfy ===
/** The golden vectors of the MAC and PCS benches: one Ethernet frame as
  * XGMII words on a 64-bit and on a 32-bit bus, the 64B/66B blocks the PCS
  * should produce for it, and the 60-octet payload of that frame, which the
  * MAC transmit test also sends. The lemmas check the tables against each
  * other and against CRC-32. */
module GoldenVectors {
  import opened Common
  import Crc32
  import LanePacking

  type Octet = Crc32.Octet

  /** One XGMII transfer: a control flag per byte lane (bit k for lane k)
    * and the lane octets, lane 0 in the least significant byte. Entries of
    * the 32-bit table use only the low four flags and the low four octets. */
  datatype XgmiiWord = XgmiiWord(ctl: bv8, data: bv64)

  /** A byte lane as the receiver reads it. */
  datatype XgmiiLane = Data(octet: Octet) | Control(code: Octet)

  /** A 64B/66B block: two sync bits (first transmitted bit in bit 0) and
    * the scrambled payload. */
  datatype SyncBlock = SyncBlock(header: bv2, payload: bv64)

  /** XGMII control characters used by the frame (clause 46 of IEEE 802.3). */
  const Idle: Octet := 0x07
  const Start: Octet := 0xFB
  const Terminate: Octet := 0xFD

  predicate IsControlCharacter(c: Octet)
  {
    c == Idle || c == Start || c == Terminate
  }

  /** Sync headers of section 49.2.4.3 of IEEE 802.3: "10" before a control
    * block and "01" before a data block, first bit in bit 0. */
  const ControlSync: bv2 := 1
  const DataSync: bv2 := 2

  /** The lane whose flag is `bit` of `ctl` and whose octet sits `shift`
    * bits up in `d`. */
  function LaneOf(ctl: bv8, bit: bv8, d: bv64, shift: bv64): XgmiiLane
    requires shift < 64
  {
    var o := ((d >> shift) & 0xFF) as bv8;
    if ctl & bit != 0 then Control(o) else Data(o)
  }

  /** Lanes 0 to 3 of a word, lane 0 first. */
  function LowLanes(w: XgmiiWord): (r: seq<XgmiiLane>)
    ensures |r| == 4
  {
    [LaneOf(w.ctl, 0x01, w.data, 0), LaneOf(w.ctl, 0x02, w.data, 8),
     LaneOf(w.ctl, 0x04, w.data, 16), LaneOf(w.ctl, 0x08, w.data, 24)]
  }

  /** Lanes 4 to 7 of a word. */
  function HighLanes(w: XgmiiWord): (r: seq<XgmiiLane>)
    ensures |r| == 4
  {
    [LaneOf(w.ctl, 0x10, w.data, 32), LaneOf(w.ctl, 0x20, w.data, 40),
     LaneOf(w.ctl, 0x40, w.data, 48), LaneOf(w.ctl, 0x80, w.data, 56)]
  }

  /** A bus is 4 or 8 lanes wide. */
  predicate BusLanes(n: nat)
  {
    n == 4 || n == 8
  }

  /** The lanes of a word on a bus `n` lanes wide. */
  function Lanes(w: XgmiiWord, n: nat): (r: seq<XgmiiLane>)
    requires BusLanes(n)
    ensures |r| == n
  {
    if n == 4 then LowLanes(w) else LowLanes(w) + HighLanes(w)
  }

  /** The lane stream a sequence of words carries on a bus `n` lanes wide. */
  function Stream(t: seq<XgmiiWord>, n: nat): (r: seq<XgmiiLane>)
    requires BusLanes(n)
    ensures |r| == n * |t|
  {
    if |t| == 0 then [] else Lanes(t[0], n) + Stream(t[1..], n)
  }

  /** A 64-bit word as two 32-bit words, low half first. */
  function Split(w: XgmiiWord): (r: seq<XgmiiWord>)
    ensures |r| == 2
  {
    [XgmiiWord(w.ctl & 0x0F, w.data & 0xFFFF_FFFF), XgmiiWord(w.ctl >> 4, w.data >> 32)]
  }

  predicate LowLane(bit: bv8, shift: bv64)
  {
    (bit == 0x01 && shift == 0) || (bit == 0x02 && shift == 8) ||
    (bit == 0x04 && shift == 16) || (bit == 0x08 && shift == 24)
  }

  /** Masking a word to its low half keeps each of its low lanes. */
  lemma LowHalfLane(c: bv8, d: bv64, bit: bv8, shift: bv64)
    requires LowLane(bit, shift)
    ensures LaneOf(c & 0x0F, bit, d & 0xFFFF_FFFF, shift) == LaneOf(c, bit, d, shift)
  {
  }

  /** Shifting a word down by half moves each high lane into the low half. */
  lemma HighHalfLane(c: bv8, d: bv64, bit: bv8, shift: bv64)
    requires LowLane(bit, shift)
    ensures LaneOf(c >> 4, bit, d >> 32, shift) == LaneOf(c, bit << 4, d, shift + 32)
  {
  }

  lemma LowHalfLanes(c: bv8, d: bv64)
    ensures LowLanes(XgmiiWord(c & 0x0F, d & 0xFFFF_FFFF)) == LowLanes(XgmiiWord(c, d))
  {
    LowHalfLane(c, d, 0x01, 0);
    LowHalfLane(c, d, 0x02, 8);
    LowHalfLane(c, d, 0x04, 16);
    LowHalfLane(c, d, 0x08, 24);
  }

  lemma HighHalfLanes(c: bv8, d: bv64)
    ensures LowLanes(XgmiiWord(c >> 4, d >> 32)) == HighLanes(XgmiiWord(c, d))
  {
    HighHalfLane(c, d, 0x01, 0);
    HighHalfLane(c, d, 0x02, 8);
    HighHalfLane(c, d, 0x04, 16);
    HighHalfLane(c, d, 0x08, 24);
  }

  /** The two halves carry the word's lanes: low lanes first, each with its
    * own control flag. */
  lemma SplitKeepsLanes(w: XgmiiWord)
    ensures LowLanes(XgmiiWord(w.ctl & 0x0F, w.data & 0xFFFF_FFFF)) + LowLanes(XgmiiWord(w.ctl >> 4, w.data >> 32))
         == LowLanes(w) + HighLanes(w)
  {
    LowHalfLanes(w.ctl, w.data);
    HighHalfLanes(w.ctl, w.data);
  }

  /** How the lanes of a split word and of a whole word unfold. */
  lemma LanesOfSplit(w: XgmiiWord)
    ensures Lanes(Split(w)[0], 4) == LowLanes(XgmiiWord(w.ctl & 0x0F, w.data & 0xFFFF_FFFF))
    ensures Lanes(Split(w)[1], 4) == LowLanes(XgmiiWord(w.ctl >> 4, w.data >> 32))
    ensures Lanes(w, 8) == LowLanes(w) + HighLanes(w)
  {
  }

  lemma SplitLanes(w: XgmiiWord)
    ensures Lanes(Split(w)[0], 4) + Lanes(Split(w)[1], 4) == Lanes(w, 8)
  {
    LanesOfSplit(w);
    SplitKeepsLanes(w);
  }

  function SplitAll(t: seq<XgmiiWord>): (r: seq<XgmiiWord>)
    ensures |r| == 2 * |t|
  {
    if |t| == 0 then [] else Split(t[0]) + SplitAll(t[1..])
  }

  /** Entry 2i and 2i+1 of the split table are the halves of entry i. */
  lemma {:induction false} SplitAllAt(t: seq<XgmiiWord>, i: nat)
    requires i < |t|
    ensures SplitAll(t)[2 * i] == Split(t[i])[0]
    ensures SplitAll(t)[2 * i + 1] == Split(t[i])[1]
  {
    if i > 0 {
      SplitAllAt(t[1..], i - 1);
    }
  }

  /** Splitting every word leaves the lane stream unchanged: a 32-bit bus
    * carries the same octets and control flags in the same order. */
  lemma {:induction false} SplitKeepsStream(t: seq<XgmiiWord>)
    ensures Stream(SplitAll(t), 4) == Stream(t, 8)
  {
    if |t| > 0 {
      var h, rest := Split(t[0]), SplitAll(t[1..]);
      assert Lanes(h[0], 4) + Lanes(h[1], 4) == Lanes(t[0], 8) by { SplitLanes(t[0]); }
      assert (h + rest)[1..] == [h[1]] + rest;
      assert ([h[1]] + rest)[1..] == rest;
      SplitKeepsStream(t[1..]);
    }
  }

  /** The frame on a 64-bit XGMII bus: an idle word, the start word with the preamble, eight words of payload and FCS, the terminate word and an idle word. */
  const MacXgmii64: seq<XgmiiWord> := [
    XgmiiWord(0xFF, 0x0707_0707_0707_0707),
    XgmiiWord(0x01, 0xD555_5555_5555_55FB),
    XgmiiWord(0x00, 0x8B0E_3805_7720_0008),
    XgmiiWord(0x00, 0x0045_0008_0000_0000),
    XgmiiWord(0x00, 0x061B_0000_661C_2800),
    XgmiiWord(0x00, 0x0000_4D59_0000_D79E),
    XgmiiWord(0x00, 0x0000_EB4A_2839_D168),
    XgmiiWord(0x00, 0x1250_0C7A_0000_7730),
    XgmiiWord(0x00, 0x0000_0000_8462_D21E),
    XgmiiWord(0x00, 0x79F7_EB93_0000_0000),
    XgmiiWord(0xFF, 0x0707_0707_0707_07FD),
    XgmiiWord(0xFF, 0x0707_0707_0707_0707)
  ]

  /** The same frame on a 32-bit XGMII bus. */
  const MacXgmii32: seq<XgmiiWord> := [
    XgmiiWord(0x0F, 0x0707_0707),
    XgmiiWord(0x0F, 0x0707_0707),
    XgmiiWord(0x01, 0x5555_55FB),
    XgmiiWord(0x00, 0xD555_5555),
    XgmiiWord(0x00, 0x7720_0008),
    XgmiiWord(0x00, 0x8B0E_3805),
    XgmiiWord(0x00, 0x0000_0000),
    XgmiiWord(0x00, 0x0045_0008),
    XgmiiWord(0x00, 0x661C_2800),
    XgmiiWord(0x00, 0x061B_0000),
    XgmiiWord(0x00, 0x0000_D79E),
    XgmiiWord(0x00, 0x0000_4D59),
    XgmiiWord(0x00, 0x2839_D168),
    XgmiiWord(0x00, 0x0000_EB4A),
    XgmiiWord(0x00, 0x0000_7730),
    XgmiiWord(0x00, 0x1250_0C7A),
    XgmiiWord(0x00, 0x8462_D21E),
    XgmiiWord(0x00, 0x0000_0000),
    XgmiiWord(0x00, 0x0000_0000),
    XgmiiWord(0x00, 0x79F7_EB93),
    XgmiiWord(0x0F, 0x0707_07FD),
    XgmiiWord(0x0F, 0x0707_0707),
    XgmiiWord(0x0F, 0x0707_0707),
    XgmiiWord(0x0F, 0x0707_0707)
  ]

  /** The PCS bench's copy of the 64-bit frame. */
  const PcsXgmii: seq<XgmiiWord> := [
    XgmiiWord(0xFF, 0x0707_0707_0707_0707),
    XgmiiWord(0x01, 0xD555_5555_5555_55FB),
    XgmiiWord(0x00, 0x8B0E_3805_7720_0008),
    XgmiiWord(0x00, 0x0045_0008_0000_0000),
    XgmiiWord(0x00, 0x061B_0000_661C_2800),
    XgmiiWord(0x00, 0x0000_4D59_0000_D79E),
    XgmiiWord(0x00, 0x0000_EB4A_2839_D168),
    XgmiiWord(0x00, 0x1250_0C7A_0000_7730),
    XgmiiWord(0x00, 0x0000_0000_8462_D21E),
    XgmiiWord(0x00, 0x79F7_EB93_0000_0000),
    XgmiiWord(0xFF, 0x0707_0707_0707_07FD),
    XgmiiWord(0xFF, 0x0707_0707_0707_0707)
  ]

  /** The 64B/66B blocks the PCS should send for the first eleven words
    * of the 64-bit frame. */
  const PcsScrambled: seq<SyncBlock> := [
    SyncBlock(1, 0x7BFF_F080_0000_001E),
    SyncBlock(1, 0x6230_16AA_AAAD_1578),
    SyncBlock(2, 0x6A76_7C6E_C581_E108),
    SyncBlock(2, 0x8DF4_AACC_8028_30E6),
    SyncBlock(2, 0x2CDB_936D_AE49_EE83),
    SyncBlock(2, 0x7490_5A82_DB70_46F3),
    SyncBlock(2, 0xC57A_251A_6B79_511E),
    SyncBlock(2, 0x4ACA_440C_D4BF_1F41),
    SyncBlock(2, 0x2C3F_2DB5_D212_2809),
    SyncBlock(2, 0x320E_33B3_C8DE_9249),
    SyncBlock(1, 0xB599_ADD7_C83A_A32A)
  ]

  /** The 60-octet payload of the frame, one row per source line; the MAC
    * transmit test sends it as its third vector. */
  const MacTestRows: seq<seq<Octet>> := [
    [0x08, 0x00, 0x20, 0x77, 0x05, 0x38, 0x0E, 0x8B],
    [0x00, 0x00, 0x00, 0x00, 0x08, 0x00, 0x45, 0x00],
    [0x00, 0x28, 0x1C, 0x66, 0x00, 0x00, 0x1B, 0x06],
    [0x9E, 0xD7, 0x00, 0x00, 0x59, 0x4D, 0x00, 0x00],
    [0x68, 0xD1, 0x39, 0x28, 0x4A, 0xEB, 0x00, 0x00],
    [0x30, 0x77, 0x00, 0x00, 0x7A, 0x0C, 0x50, 0x12],
    [0x1E, 0xD2, 0x62, 0x84, 0x00, 0x00, 0x00, 0x00],
    [0x00, 0x00, 0x00, 0x00]
  ]

  /** CRC register contents at the start of each payload row. */
  const MacTestStates: seq<bv32> := [
    0xFFFF_FFFF, 0xFC29_31F6, 0xD2CD_C926, 0xE6BE_C983,
    0x994C_DDA8, 0x9A50_178D, 0x15E7_2D55, 0x44DA_1F40,
    0x8608_146C
  ]

  lemma MacTestRow0() ensures Crc32.Register(MacTestStates[0], MacTestRows[0]) == MacTestStates[1] {}
  lemma MacTestRow1() ensures Crc32.Register(MacTestStates[1], MacTestRows[1]) == MacTestStates[2] {}
  lemma MacTestRow2() ensures Crc32.Register(MacTestStates[2], MacTestRows[2]) == MacTestStates[3] {}
  lemma MacTestRow3() ensures Crc32.Register(MacTestStates[3], MacTestRows[3]) == MacTestStates[4] {}
  lemma MacTestRow4() ensures Crc32.Register(MacTestStates[4], MacTestRows[4]) == MacTestStates[5] {}
  lemma MacTestRow5() ensures Crc32.Register(MacTestStates[5], MacTestRows[5]) == MacTestStates[6] {}
  lemma MacTestRow6() ensures Crc32.Register(MacTestStates[6], MacTestRows[6]) == MacTestStates[7] {}
  lemma MacTestRow7() ensures Crc32.Register(MacTestStates[7], MacTestRows[7]) == MacTestStates[8] {}

  lemma MacTestChain()
    ensures Crc32.RowsChain(MacTestRows, MacTestStates)
  {
    forall k | 0 <= k < |MacTestRows|
      ensures Crc32.Register(MacTestStates[k], MacTestRows[k]) == MacTestStates[k + 1]
    {
      if k == 0 {
        MacTestRow0();
      } else if k == 1 {
        MacTestRow1();
      } else if k == 2 {
        MacTestRow2();
      } else if k == 3 {
        MacTestRow3();
      } else if k == 4 {
        MacTestRow4();
      } else if k == 5 {
        MacTestRow5();
      } else if k == 6 {
        MacTestRow6();
      } else if k == 7 {
        MacTestRow7();
      }
    }
  }

  function MacTestFrame(): seq<Octet>
  {
    Flatten(MacTestRows)
  }

  /** The FCS the receive tables carry after the payload is its CRC-32. */
  lemma MacTestCrc()
    ensures Crc32.Crc(MacTestFrame()) == 0x79F7_EB93
    ensures |MacTestFrame()| == 60
  {
    MacTestChain();
    Crc32.ChainedRows(MacTestRows, MacTestStates, 0);
    assert MacTestRows[0..] == MacTestRows;
    var r := MacTestRows;
    assert |Flatten(r)| == 60 by {
      assert Flatten(r[7..]) == r[7] + Flatten(r[8..]);
    }
  }

  /** Lanes of the frame as clause 46 of IEEE 802.3 lays it out. */
  function IdleLanes(n: nat): (r: seq<XgmiiLane>)
    ensures |r| == n
  {
    seq(n, _ => Control(Idle))
  }

  function DataLanes(s: seq<Octet>): (r: seq<XgmiiLane>)
    ensures |r| == |s|
  {
    seq(|s|, i requires 0 <= i < |s| => Data(s[i]))
  }

  /** The start character in lane 0, six preamble octets and the start of
    * frame delimiter. */
  const StartLanes: seq<XgmiiLane> :=
    [Control(Start), Data(0x55), Data(0x55), Data(0x55), Data(0x55), Data(0x55), Data(0x55), Data(0xD5)]

  lemma IdleRows()
    ensures Lanes(MacXgmii64[0], 8) == IdleLanes(8)
    ensures Lanes(MacXgmii64[11], 8) == IdleLanes(8)
    ensures Lanes(MacXgmii64[10], 8) == [Control(Terminate)] + IdleLanes(7)
  {
  }

  lemma StartRow()
    ensures Lanes(MacXgmii64[1], 8) == StartLanes
  {
  }

  lemma PayloadRows()
    ensures forall k :: 0 <= k < 7 ==> Lanes(MacXgmii64[k + 2], 8) == DataLanes(MacTestRows[k])
  {
    forall k | 0 <= k < 7
      ensures Lanes(MacXgmii64[k + 2], 8) == DataLanes(MacTestRows[k])
    {
      if k == 0 {
        assert Lanes(MacXgmii64[2], 8) == DataLanes(MacTestRows[0]);
      } else if k == 1 {
        assert Lanes(MacXgmii64[3], 8) == DataLanes(MacTestRows[1]);
      } else if k == 2 {
        assert Lanes(MacXgmii64[4], 8) == DataLanes(MacTestRows[2]);
      } else if k == 3 {
        assert Lanes(MacXgmii64[5], 8) == DataLanes(MacTestRows[3]);
      } else if k == 4 {
        assert Lanes(MacXgmii64[6], 8) == DataLanes(MacTestRows[4]);
      } else if k == 5 {
        assert Lanes(MacXgmii64[7], 8) == DataLanes(MacTestRows[5]);
      } else if k == 6 {
        assert Lanes(MacXgmii64[8], 8) == DataLanes(MacTestRows[6]);
      }
    }
  }

  lemma FcsOctetsOfMacTest()
    ensures Crc32.FcsOctets(Crc32.Crc(MacTestFrame())) == [0x93, 0xEB, 0xF7, 0x79]
  {
    MacTestCrc();
  }

  lemma FcsRowOctets()
    ensures Lanes(MacXgmii64[9], 8) == DataLanes(MacTestRows[7] + [0x93, 0xEB, 0xF7, 0x79])
  {
  }

  lemma FcsRow()
    ensures Lanes(MacXgmii64[9], 8) == DataLanes(MacTestRows[7] + Crc32.FcsOctets(Crc32.Crc(MacTestFrame())))
  {
    FcsOctetsOfMacTest();
    FcsRowOctets();
  }

  lemma DataLanesAppend(a: seq<Octet>, b: seq<Octet>)
    ensures DataLanes(a + b) == DataLanes(a) + DataLanes(b)
  {
  }

  lemma {:induction false} StreamAppend(a: seq<XgmiiWord>, b: seq<XgmiiWord>, n: nat)
    requires BusLanes(n)
    ensures Stream(a + b, n) == Stream(a, n) + Stream(b, n)
    decreases |a|
  {
    if |a| > 0 {
      assert (a + b)[1..] == a[1..] + b;
      StreamAppend(a[1..], b, n);
    } else {
      assert a + b == b;
    }
  }

  /** The stream of a table is the concatenation of its words' lanes. */
  lemma {:induction false} StreamRows(t: seq<XgmiiWord>, n: nat, rows: seq<seq<XgmiiLane>>)
    requires BusLanes(n) && |rows| == |t|
    requires forall i :: 0 <= i < |t| ==> Lanes(t[i], n) == rows[i]
    ensures Stream(t, n) == Flatten(rows)
    decreases |t|
  {
    if |t| > 0 {
      assert Lanes(t[0], n) == rows[0];
      forall i | 0 <= i < |t| - 1
        ensures Lanes(t[1..][i], n) == rows[1..][i]
      {
        assert t[1..][i] == t[i + 1];
      }
      StreamRows(t[1..], n, rows[1..]);
    }
  }

  /** Payload rows, the last with the FCS appended, join into the payload
    * followed by the FCS. */
  lemma {:induction false} DataRows(rows: seq<seq<Octet>>, fcs: seq<Octet>)
    requires |rows| > 0
    ensures Flatten(seq(|rows| - 1, k requires 0 <= k < |rows| - 1 => DataLanes(rows[k])) + [DataLanes(rows[|rows| - 1] + fcs)])
         == DataLanes(Flatten(rows) + fcs)
    decreases |rows|
  {
    var m := |rows| - 1;
    var ls := seq(m, k requires 0 <= k < m => DataLanes(rows[k])) + [DataLanes(rows[m] + fcs)];
    if m == 0 {
      assert ls == [DataLanes(rows[0] + fcs)];
      assert Flatten(ls) == DataLanes(rows[0] + fcs) + Flatten(ls[1..]);
      assert Flatten(rows) == rows[0] + Flatten(rows[1..]);
      assert rows[1..] == [];
    } else {
      var rest := rows[1..];
      DataRows(rest, fcs);
      var ls' := seq(m - 1, k requires 0 <= k < m - 1 => DataLanes(rest[k])) + [DataLanes(rest[m - 1] + fcs)];
      assert ls[1..] == ls';
      assert Flatten(ls) == DataLanes(rows[0]) + Flatten(ls');
      assert Flatten(rows) == rows[0] + Flatten(rest);
      assert rows[0] + Flatten(rest) + fcs == rows[0] + (Flatten(rest) + fcs);
      DataLanesAppend(rows[0], Flatten(rest) + fcs);
    }
  }

  /** Twelve rows of lanes laid out as idle, start, eight payload rows with
    * the FCS in the last, terminate and idle join into one frame. */
  lemma FrameLayout(ls: seq<seq<XgmiiLane>>, rows: seq<seq<Octet>>, fcs: seq<Octet>)
    requires |ls| == 12 && |rows| == 8
    requires ls[0] == IdleLanes(8) && ls[1] == StartLanes
    requires forall k :: 0 <= k < 7 ==> ls[k + 2] == DataLanes(rows[k])
    requires ls[9] == DataLanes(rows[7] + fcs)
    requires ls[10] == [Control(Terminate)] + IdleLanes(7) && ls[11] == IdleLanes(8)
    ensures Flatten(ls) ==
      IdleLanes(8) + StartLanes + DataLanes(Flatten(rows) + fcs) + [Control(Terminate)] + IdleLanes(7) + IdleLanes(8)
  {
    var mid := ls[2..10];
    assert mid == seq(7, k requires 0 <= k < 7 => DataLanes(rows[k])) + [DataLanes(rows[7] + fcs)];
    DataRows(rows, fcs);
    assert ls == [ls[0], ls[1]] + mid + [ls[10], ls[11]];
    FlattenAppend([ls[0], ls[1]] + mid, [ls[10], ls[11]]);
    FlattenAppend([ls[0], ls[1]], mid);
    assert Flatten([ls[0], ls[1]]) == ls[0] + Flatten([ls[1]]);
    assert Flatten([ls[1]]) == ls[1] + Flatten([]);
    assert Flatten([ls[10], ls[11]]) == ls[10] + Flatten([ls[11]]);
    assert Flatten([ls[11]]) == ls[11] + Flatten([]);
  }

  /** Twelve 64-bit words laid out as idle, start, eight payload words with
    * the FCS in the last, terminate and idle carry one frame. */
  lemma FrameOfWords(t: seq<XgmiiWord>, rows: seq<seq<Octet>>, fcs: seq<Octet>)
    requires |t| == 12 && |rows| == 8
    requires Lanes(t[0], 8) == IdleLanes(8) && Lanes(t[1], 8) == StartLanes
    requires forall k :: 0 <= k < 7 ==> Lanes(t[k + 2], 8) == DataLanes(rows[k])
    requires Lanes(t[9], 8) == DataLanes(rows[7] + fcs)
    requires Lanes(t[10], 8) == [Control(Terminate)] + IdleLanes(7) && Lanes(t[11], 8) == IdleLanes(8)
    ensures Stream(t, 8) ==
      IdleLanes(8) + StartLanes + DataLanes(Flatten(rows) + fcs) + [Control(Terminate)] + IdleLanes(7) + IdleLanes(8)
  {
    var ls := seq(12, i requires 0 <= i < 12 => Lanes(t[i], 8));
    StreamRows(t, 8, ls);
    FrameLayout(ls, rows, fcs);
  }

  /** The lane stream of the golden frame, one complete Ethernet frame
    * whose FCS is the payload's CRC-32: a column of idles, the start column
    * with the preamble, the 60-octet payload and its FCS as data, the
    * terminate character and idles up to the end of the last word. */
  function FrameLanes(): (r: seq<XgmiiLane>)
    ensures |r| == 96
  {
    IdleLanes(8) + StartLanes + DataLanes(MacTestFrame() + Crc32.FcsOctets(Crc32.Crc(MacTestFrame()))) +
    [Control(Terminate)] + IdleLanes(7) + IdleLanes(8)
  }

  lemma FrameStream64()
    ensures Stream(MacXgmii64, 8) == FrameLanes()
  {
    MacTestCrc();
    IdleRows();
    StartRow();
    PayloadRows();
    FcsRow();
    FrameOfWords(MacXgmii64, MacTestRows, Crc32.FcsOctets(Crc32.Crc(MacTestFrame())));
  }

  lemma SplitRow0() ensures Split(MacXgmii64[0]) == [MacXgmii32[0], MacXgmii32[1]] {}
  lemma SplitRow1() ensures Split(MacXgmii64[1]) == [MacXgmii32[2], MacXgmii32[3]] {}
  lemma SplitRow2() ensures Split(MacXgmii64[2]) == [MacXgmii32[4], MacXgmii32[5]] {}
  lemma SplitRow3() ensures Split(MacXgmii64[3]) == [MacXgmii32[6], MacXgmii32[7]] {}
  lemma SplitRow4() ensures Split(MacXgmii64[4]) == [MacXgmii32[8], MacXgmii32[9]] {}
  lemma SplitRow5() ensures Split(MacXgmii64[5]) == [MacXgmii32[10], MacXgmii32[11]] {}
  lemma SplitRow6() ensures Split(MacXgmii64[6]) == [MacXgmii32[12], MacXgmii32[13]] {}
  lemma SplitRow7() ensures Split(MacXgmii64[7]) == [MacXgmii32[14], MacXgmii32[15]] {}
  lemma SplitRow8() ensures Split(MacXgmii64[8]) == [MacXgmii32[16], MacXgmii32[17]] {}
  lemma SplitRow9() ensures Split(MacXgmii64[9]) == [MacXgmii32[18], MacXgmii32[19]] {}
  lemma SplitRow10() ensures Split(MacXgmii64[10]) == [MacXgmii32[20], MacXgmii32[21]] {}
  lemma SplitRow11() ensures Split(MacXgmii64[11]) == [MacXgmii32[22], MacXgmii32[23]] {}

  /** Halving entry `j` of the 64-bit table gives entries `2j` and `2j+1`
    * of the 32-bit table. */
  lemma SplitRow(j: nat)
    requires j < 12
    ensures Split(MacXgmii64[j]) == [MacXgmii32[2 * j], MacXgmii32[2 * j + 1]]
  {
    if j == 0 { SplitRow0(); }
    else if j == 1 { SplitRow1(); }
    else if j == 2 { SplitRow2(); }
    else if j == 3 { SplitRow3(); }
    else if j == 4 { SplitRow4(); }
    else if j == 5 { SplitRow5(); }
    else if j == 6 { SplitRow6(); }
    else if j == 7 { SplitRow7(); }
    else if j == 8 { SplitRow8(); }
    else if j == 9 { SplitRow9(); }
    else if j == 10 { SplitRow10(); }
    else { SplitRow11(); }
  }

  /** The 32-bit table is the 64-bit table split entry by entry, low half
    * (low control nibble, low 32 data bits) first. */
  lemma SplitTables()
    ensures |MacXgmii64| == 12 && |MacXgmii32| == 24
    ensures MacXgmii32 == SplitAll(MacXgmii64)
  {
    forall j | 0 <= j < 12
      ensures Split(MacXgmii64[j]) == [MacXgmii32[2 * j], MacXgmii32[2 * j + 1]]
    {
      SplitRow(j);
    }
    SplitAllOfRows(MacXgmii64, MacXgmii32);
  }

  /** A table whose entries 2j and 2j+1 are the halves of entry j of `t` is
    * the split of `t`. */
  lemma SplitAllOfRows(t: seq<XgmiiWord>, u: seq<XgmiiWord>)
    requires |u| == 2 * |t|
    requires forall j :: 0 <= j < |t| ==> Split(t[j]) == [u[2 * j], u[2 * j + 1]]
    ensures u == SplitAll(t)
  {
    forall i | 0 <= i < |u|
      ensures u[i] == SplitAll(t)[i]
    {
      var j := i / 2;
      SplitAllAt(t, j);
      var h := Split(t[j]);
      assert h == [u[2 * j], u[2 * j + 1]];
      if i % 2 == 0 {
        assert i == 2 * j;
      } else {
        assert i == 2 * j + 1;
      }
    }
  }

  /** The 32-bit table carries the same lane stream, hence the same frame. */
  lemma FrameStream32()
    ensures Stream(MacXgmii32, 4) == FrameLanes()
  {
    SplitTables();
    SplitKeepsStream(MacXgmii64);
    FrameStream64();
  }

  /** The PCS bench's XGMII table is the MAC bench's 64-bit table. */
  lemma PcsTableIsMacTable()
    ensures |PcsXgmii| == 12 && |PcsScrambled| == 11
    ensures PcsXgmii == MacXgmii64
  {
  }

  /** Each block's sync header follows its word's control flags: the
    * control header where any lane is a control character, the data
    * header where all eight lanes are data. */
  lemma SyncHeaders()
    ensures forall i :: 0 <= i < |PcsScrambled| ==>
      PcsScrambled[i].header == (if PcsXgmii[i].ctl != 0 then ControlSync else DataSync)
  {
    forall i | 0 <= i < |PcsScrambled|
      ensures PcsScrambled[i].header == (if PcsXgmii[i].ctl != 0 then ControlSync else DataSync)
    {
      if i < 2 || i == 10 {
        assert PcsXgmii[i].ctl != 0 && PcsScrambled[i].header == ControlSync;
      } else {
        assert PcsXgmii[i].ctl == 0 && PcsScrambled[i].header == DataSync;
      }
    }
  }

  /** Only the two valid sync headers occur. */
  lemma SyncHeadersValid()
    ensures forall i :: 0 <= i < |PcsScrambled| ==>
      PcsScrambled[i].header == ControlSync || PcsScrambled[i].header == DataSync
  {
    SyncHeaders();
  }

  /** Every lane flagged as control carries an XGMII control character. */
  predicate ControlLanesKnown(ls: seq<XgmiiLane>)
  {
    forall i :: 0 <= i < |ls| && ls[i].Control? ==> IsControlCharacter(ls[i].code)
  }

  lemma ControlLanesAppend(a: seq<XgmiiLane>, b: seq<XgmiiLane>)
    requires ControlLanesKnown(a) && ControlLanesKnown(b)
    ensures ControlLanesKnown(a + b)
  {
    forall i | 0 <= i < |a + b| && (a + b)[i].Control?
      ensures IsControlCharacter((a + b)[i].code)
    {
      if i >= |a| {
        assert (a + b)[i] == b[i - |a|];
      }
    }
  }

  /** In the frame layout, whatever the payload, the control lanes are
    * the idles, the start and the terminate. */
  lemma LayoutControlKnown(payload: seq<Octet>)
    ensures ControlLanesKnown(IdleLanes(8) + StartLanes + DataLanes(payload) + [Control(Terminate)] + IdleLanes(7) + IdleLanes(8))
  {
    var p := DataLanes(payload);
    assert ControlLanesKnown(StartLanes);
    assert ControlLanesKnown([Control(Terminate)]);
    ControlLanesAppend(IdleLanes(8), StartLanes);
    ControlLanesAppend(IdleLanes(8) + StartLanes, p);
    ControlLanesAppend(IdleLanes(8) + StartLanes + p, [Control(Terminate)]);
    ControlLanesAppend(IdleLanes(8) + StartLanes + p + [Control(Terminate)], IdleLanes(7));
    ControlLanesAppend(IdleLanes(8) + StartLanes + p + [Control(Terminate)] + IdleLanes(7), IdleLanes(8));
  }

  /** In both tables, lanes with their control flag set hold only Idle,
    * Start or Terminate. */
  lemma ControlCharactersOnly()
    ensures ControlLanesKnown(Stream(MacXgmii64, 8))
    ensures ControlLanesKnown(Stream(MacXgmii32, 4))
  {
    FrameStream64();
    FrameStream32();
    LayoutControlKnown(MacTestFrame() + Crc32.FcsOctets(Crc32.Crc(MacTestFrame())));
  }

  /** Python indexing of a list: non-negative indices from the front,
    * negative ones from the back, anything else an `IndexError`. */
  function PyIndex<T>(xs: seq<T>, i: int): (r: Option<T>)
    ensures r.Some? <==> -|xs| <= i < |xs|
    ensures 0 <= i < |xs| ==> r == Some(xs[i])
  {
    if 0 <= i < |xs| then Some(xs[i])
    else if -|xs| <= i < 0 then Some(xs[|xs| + i])
    else None
  }

  /** The PCS bench looks up its golden word as the XGMII table indexed by
    * the data width, with the table a flat list: both widths miss it. */
  lemma FlatTableByWidth()
    ensures PyIndex(PcsXgmii, 32).None? && PyIndex(PcsXgmii, 64).None?
    ensures PyIndex(PcsScrambled, 32).None? && PyIndex(PcsScrambled, 64).None?
  {
  }

  /** The XGMII golden table for a bus width, as the MAC bench keys it. */
  function XgmiiTable(width: int): (r: Option<seq<XgmiiWord>>)
    ensures r.Some? <==> width == 32 || width == 64
    ensures r.Some? ==> |r.value| * width == 768
  {
    if width == 64 then Some(PcsXgmii)
    else if width == 32 then Some(MacXgmii32)
    else None
  }

  /** The scrambled golden table for a bus width; only the 64-bit one
    * exists. */
  function ScrambledTable(width: int): (r: Option<seq<SyncBlock>>)
    ensures r.Some? <==> width == 64
    ensures r.Some? ==> |r.value| == 11
  {
    if width == 64 then Some(PcsScrambled) else None
  }

  /** Looked up by width, either table carries the same lane stream, the
    * golden frame of `FrameStream64`. */
  lemma TableByWidthCarriesFrame(width: int)
    requires width == 32 || width == 64
    ensures XgmiiTable(width).Some? && BusLanes(width / 8)
    ensures Stream(XgmiiTable(width).value, width / 8) == Stream(MacXgmii64, 8)
  {
    PcsTableIsMacTable();
    if width == 32 {
      SplitTables();
      SplitKeepsStream(MacXgmii64);
    }
  }
}
